=== FILE: README.md ===
# problems — a Dafny model of RFC 7807 problem types and problem details

This project models the validation and formatting engine of the `problems` library. The library implements the "Problem Details for HTTP APIs" model of RFC 7807 (sections 3.1 and 3.2 cover the standard members and extension members). It has two classes:

- **`ProblemType`**, a reusable error category. It holds an identifying URI, title and detail templates, and an extension schema that declares which members its instances carry. Construction normalises the URI and checks it against allow-lists. It also rejects reserved member names and malformed schemas.
- **`ProblemDetails`**, one occurrence of a problem type. Construction runs these steps in order:
  1. Pick the type, defaulting to a fresh blank one.
  2. Validate every supplied member against the type.
  3. Format the title and the detail against the validated data.
  4. Coerce the status to an HTTP status.

  An instance exports `type`, `title`, `detail` and `status`, followed by its data in insertion order. Reading any other attribute falls back to the data.

Modules, one per concept:

| module | file | what it holds |
|---|---|---|
| `Wrappers` | wrappers.dfy | `Option` and `Result`, usable with `:-` |
| `Dicts` | dicts.dfy | Python's insertion-ordered `dict` as a sequence of pairs with distinct keys |
| `Values` | values.dfy | the value tree the core handles. A JSON-Schema document is one such value. Also the foreign collaborators (schema check, instance validation, value-to-text) |
| `Errors` | errors.dfy | the failure kinds, naming what each error names in the source |
| `Identifiers` | identifiers.dfy | URI components, the fill-in rules, the allow-lists and the recomposed identifier |
| `Templates` | templates.dfy | the `str.format` subset the core relies on. `Format` works on the string directly; `Parse`/`Unparse`/`Render` are an independent reference reading |
| `Statuses` | statuses.dfy | `HTTPStatus` coercion |
| `Types` | problem_types.dfy | `ProblemType` |
| `Details` | problem_details.dfy | `ProblemDetails` |
| `Scenarios` | scenarios.dfy | the repository's test cases as concrete lemmas, under a small stand-in schema library |

Foreign code becomes parameters. JSON-Schema meta-validation, instance validation and the text of a non-string value are the three fields of `Values.Collaborators`. Every operation that needs them takes them as an argument, and no property depends on what they do. URI parsing is not modelled: `validate_identifier` starts from the parsed components (scheme, host, path). Python's truthiness is kept, so an empty component counts as absent.

## Model

| member | source | states |
|---|---|---|
| Identifiers.Normalize | src/problems/types.py:65-72 | the result always has a scheme and a host. A present scheme or host is kept, a missing host becomes `example.com` and a missing scheme becomes `https`. A present host keeps the path untouched, and an absolute path is kept as it is. A path is present exactly when it was; it is either unchanged or gains a leading `/`, which a host-less input always gets |
| Identifiers.Fault | src/problems/types.py:73-77 | the validator's rules in order: a missing path is reported first, then a scheme outside the allow-list, then a host outside it. Validation passes exactly when none of the three applies |
| Identifiers.Unsplit | src/problems/types.py:79-81 | the recomposed text starts with the scheme and a colon when there is a scheme, followed by `//` and the host when there is a host too. It ends with the path when there is one, and is the bare path when there is neither scheme nor host |
| Identifiers.UnsplitFull | src/problems/types.py:79-81 | with scheme, host and path all present, the recomposed text is `scheme://host` followed by the path |
| Identifiers.ValidateIdentifier | src/problems/types.py:55-81 | accepted exactly when the path is non-empty, the scheme (if given) is allowed and the host (if given) is allowed. An accepted identifier is `scheme://example.com` plus the non-empty path. A rejection names the normalised URI |
| Identifiers.AcceptedIsCanonical | src/problems/types.py:73-81 | every accepted identifier starts with an allowed scheme and `://example.com`, followed by a non-empty path |
| Identifiers.FillsSchemeAndHost | src/problems/types.py:66-71 | a bare path, relative or absolute, becomes `https://example.com/` + the path, with one leading slash |
| Identifiers.FillsSchemeOnly | src/problems/types.py:66-71 | a scheme-relative reference only gains `https`. It is accepted exactly when its host is `example.com` and it has a path |
| Identifiers.RejectsMissingPath | src/problems/types.py:73-79 | a reference without a path is rejected by the path rule, whatever its scheme and host |
| Identifiers.RejectsScheme | src/problems/types.py:74-79 | with a path, a scheme outside `{about, http, https}` is rejected by the scheme rule |
| Identifiers.RejectsHost | src/problems/types.py:75-79 | with a path and an allowed scheme, a host other than `example.com` is rejected by the host rule |
| Identifiers.NormalizeIdempotent | src/problems/types.py:66-72 | normalising twice equals normalising once. Validating normalised components gives the same outcome as validating the originals |
| Identifiers.CanonicalReading | src/problems/types.py:72-81 | two inputs accepted with the same identifier string have the same normalised components, so the string determines them |
| Identifiers.NeverBlank | src/problems/types.py:37-39 | no input to validation yields `about:blank`; only the omitted-identifier branch does |
| Types.ValidateExtension | src/problems/types.py:84-108 | a reserved name is rejected before any schema is examined. It is accepted exactly when no name is reserved and every schema is well formed. An accepted extension is returned unchanged, and without a reserved name every rejection is a schema error (the source's `TypeError`), naming the first malformed member in declaration order |
| Types.ReservedBeforeSchemas | src/problems/types.py:95-99 | an extension with a reserved member name is rejected as such, even when a schema is also malformed |
| Types.IdentifierOf | src/problems/types.py:37-39 | an omitted identifier gives `about:blank`. A given one is validated, and any accepted identifier is canonical |
| Types.Construct | src/problems/types.py:29-42 | a constructed type satisfies the invariant: canonical identifier, no reserved member name, every schema well formed. It keeps title and detail and takes the validated identifier. It fails exactly when identifier or extension validation fails, the identifier error first; with the identifier accepted or omitted, a rejected extension gives exactly `validate_extension`'s error (reserved name or malformed schema). An omitted extension becomes empty |
| Types.BlankConstruction | src/problems/types.py:27-42 | with no arguments the type is `about:blank` with empty title, detail and extension. It satisfies the invariant whatever the schema library, and its string form is `about:blank` |
| Types.ValidateValue | src/problems/types.py:110-113 | a value passes exactly when its schema is well formed and the value satisfies it. A malformed schema is reported as a schema error; a well-formed schema the value does not satisfy is reported as a violation naming the value and the schema. An accepted value is returned unchanged |
| Types.Validate | src/problems/types.py:115-123 | an undeclared member fails with its name and the class name `ProblemType`. A declared member's outcome, success or error, is exactly `validate_value`'s on its declared schema, so it passes exactly when that schema is well formed and satisfied. An accepted value is returned unchanged |
| Types.UnknownMember | src/problems/types.py:116-122 | an undeclared member is rejected whatever its value |
| Types.Blank | src/problems/types.py:27-42 | the type used when none is given has identifier `about:blank`, which is canonical, empty title and detail, and no extension members |
| Types.ToString | src/problems/types.py:51-52 | the string form of a type is its `identifier` field, which is also what its `identifier` attribute reads |
| Types.Attr | src/problems/types.py:44-46 | exactly the four slot names are attributes |
| Types.Items | src/problems/types.py:44-49 | the attribute view has the slot names as keys, in slot order, each bound to that attribute's value |
| Types.ItemsInOrder | src/problems/types.py:11-52 | the view is the `identifier`, `title`, `detail` and `extension` fields, in that order, and its first entry is the string form |
| Values.Member | src/problems/types.py:126-128 | attribute access on wrapped data finds a value exactly when the value is a mapping holding that key, and then finds the stored value |
| Templates.Walk | src/problems/types.py:126-130 | a descent that succeeds used only non-empty names. A failing descent is malformed (an empty attribute name) or reports a missing segment by a non-empty name from the path |
| Templates.WalkStep | src/problems/types.py:126-128 | one step of a descent succeeds with `w` exactly when the segment is non-empty and `w` is that member of the current value; with `WalkAppend` this fixes what `{a.b.c}` resolves to at every depth |
| Templates.LookupFirst | src/problems/types.py:126-128 | a placeholder's first segment selects the value stored under that key in the data, and the rest of the path descends from it |
| Templates.MissingSegment | src/problems/types.py:126-130 | once a path prefix resolves to a value that lacks the next segment, the descent fails naming that segment, whatever follows it |
| Templates.Lookup | src/problems/types.py:126-130 | a resolved placeholder path is non-empty, has no empty segment and starts with a keyword name. A placeholder with no name or a positional (digits-only) first segment is malformed, the `str.format` IndexError kind, never a missing field. A missing segment is reported by a non-empty name from the path |
| Templates.LookupMissing | src/problems/types.py:126-130 | a placeholder whose first segment is not a key of the data fails naming that segment, whatever follows it |
| Templates.LookupMissingSegment | src/problems/types.py:126-130 | a placeholder whose prefix resolves but whose next segment is missing fails naming that segment (for `{foo.baa}`, `baa`) |
| Templates.LookupKey | src/problems/types.py:128 | a one-segment placeholder resolves to `v` exactly when `(name, v)` is in the data |
| Templates.WalkAppend | src/problems/types.py:126-130 | descending along `p + q` is descending along `p`, then along `q` |
| Templates.Format | src/problems/types.py:125-130 | a template without braces is returned unchanged |
| Templates.FormatIsRender | src/problems/types.py:125-130 | on a template that parses, formatting equals rendering its parsed pieces against the data |
| Templates.FormatNeedsParse | src/problems/types.py:125-130 | a template that formats successfully parses |
| Templates.Render | src/problems/types.py:128 | rendering succeeds exactly when every placeholder's path resolves |
| Templates.Parse | src/problems/types.py:128 | a parsed template has only well-formed placeholder paths |
| Templates.UnparseParse | src/problems/types.py:128 | writing out a parsed template gives back the original text |
| Templates.ParseUnparse | src/problems/types.py:128 | parsing the text of well-formed pieces gives back the pieces |
| Templates.FormatLiteralPrefix | src/problems/types.py:128 | brace-free text in front of a template is copied through, and errors pass unchanged |
| Templates.FormatPlaceholder | src/problems/types.py:126-130 | a leading placeholder becomes the text of the value its path resolves to, or the lookup's error |
| Templates.FormatOneField | src/problems/types.py:126-130 | text followed by one placeholder formats to the text plus the resolved value, or the lookup's error |
| Templates.JoinSplit | src/problems/types.py:128 | splitting a field name at dots and joining the parts gives back the name |
| Templates.SplitJoin | src/problems/types.py:128 | joining dot-free segments and splitting again gives back the segments |
| Statuses.Coerce | src/problems/details.py:25 | an omitted status stays absent and a status member passes through. An integer becomes the status with that code, or fails naming the code when there is none |
| Statuses.CodeMatchesMember | src/problems/details.py:25 | integer 200 and the member with code 200 coerce to the same status, and likewise for every code |
| Details.TypeOf | src/problems/details.py:17 | a given type is used as it is; an omitted one is the blank type, `about:blank` with empty texts and no extension |
| Details.FirstRejected | src/problems/details.py:40-41 | the members before the returned position all validate, and the one at it, if any, does not |
| Details.ValidateData | src/problems/details.py:40-41 | the data is validated in supplied order. On success it is exactly what was supplied; otherwise the error is the first rejected member's |
| Details.Construct | src/problems/details.py:8-25 | on success the instance has the given type (or a blank one) and exactly the supplied data, every member declared and conforming. Title and detail are the chosen templates formatted against the data, and the status is the coerced one. Construction succeeds exactly when the data validates, both templates format and the status coerces. The first failing step's error is the result, in the order data, title, detail, status |
| Details.DataBeforeTemplates | src/problems/details.py:17-24 | an undeclared member fails construction with its name and the type's class name, whatever the templates hold |
| Details.ExplicitPlainText | src/problems/details.py:19-24 | an explicit title or detail without braces is used verbatim |
| Details.BlankInstance | src/problems/details.py:17-32 | with no arguments the instance has the blank type, empty title and detail and no status. It exports exactly these four items |
| Details.Export | src/problems/details.py:27-32 | the export lists `type`, `title`, `detail`, `status`, then exactly the data in insertion order |
| Details.ExportKeys | src/problems/details.py:27-32 | the export's keys are the four structural keys followed by the data's keys |
| Details.ExportDistinct | src/problems/details.py:27-32 | for an instance of a valid type with declared data, no export key repeats |
| Details.ExportIsDict | src/problems/details.py:27-32 | in the export each structural key maps to its field and each data key to its value |
| Details.ConstructedExport | src/problems/details.py:18-32 | a successful construction exports the structural keys followed by the supplied members in supplied order, with no key repeated |
| Details.GetAttr | src/problems/details.py:34-38 | the instance fields always resolve, each to its stored value: `type` to the type, `data` to the data, `title` and `detail` to the formatted texts, `status` to the coerced status. Any other name resolves exactly when it was supplied as data, and otherwise fails naming it and `ProblemDetails` |
| Details.GetAttrData | src/problems/details.py:34-38 | a non-field name reads `v` exactly when `(name, v)` was supplied |
| Details.DeclaredButAbsent | src/problems/details.py:34-38 | a member the type declares but the instance was not given is not an attribute |
| Scenarios.EmptyIdentifier | src/tests/test_types.py:22-24 | an empty identifier is rejected for its missing path |
| Scenarios.SchemeRelative | src/tests/test_types.py:27-29 | `//example.com/baz` gives `https://example.com/baz` |
| Scenarios.BarePaths | src/tests/test_types.py:32-36 | `foo/bar` and `/foo/bar` both give `https://example.com/foo/bar` |
| Scenarios.ForeignHost | src/tests/test_types.py:39-44 | `https://foo.bar/baz` is rejected by the host rule |
| Scenarios.NoPath | src/tests/test_types.py:47-50 | `https://example.com` is rejected by the path rule |
| Scenarios.ExplicitBlank | src/problems/types.py:66-72 | `about:blank` passed explicitly reads as scheme `about` with path `blank`, and becomes `about://example.com/blank` |
| Scenarios.TypedBlank | src/tests/test_typed_details.py:28-30 | a type declaring `foo` (string) and `baz` (integer) and nothing else is blank with that extension |
| Scenarios.ReservedMembers | src/tests/test_types.py:56-60 | every reserved name is rejected as an extension member |
| Scenarios.ArraySchema | src/tests/test_types.py:63-66 | `{"foo": []}` is rejected naming `foo` |
| Scenarios.BlankType | src/tests/test_types.py:6-19 | the blank type's fields and string form |
| Scenarios.TypeItems | src/tests/test_types.py:72-84 | the attribute view of a full type |
| Scenarios.FormatSimple | src/tests/test_types.py:100-102 | `test {foo}` with `foo = "bar baz bam"` formats to `test bar baz bam` |
| Scenarios.FormatNested | src/tests/test_types.py:105-111 | `test {foo.bar}` resolves through nested data |
| Scenarios.FormatMissingAttribute | src/tests/test_types.py:114-119 | `test {foo.baa}` fails naming `baa` |
| Scenarios.BaseType | src/tests/test_typed_details.py:8-15 | the `base_type` fixture built by the constructor from `//example.com/base` has identifier `https://example.com/base` and keeps its texts and extension |
| Scenarios.DetailsFromType | src/tests/test_typed_details.py:8-24 | for the constructed `base_type`, an instance without explicit texts takes the type's title and detail, and keeps its data |
| Scenarios.DetailsWithData | src/tests/test_typed_details.py:27-35 | construction with declared, conforming members succeeds with that data |
| Scenarios.DetailsAttributes | src/tests/test_typed_details.py:27-35 | supplied members read as attributes; a declared but unsupplied one does not |
| Scenarios.DetailsUnknownMember | src/tests/test_typed_details.py:38-46 | an undeclared member fails naming it and `ProblemType` |
| Scenarios.DetailsWrongValue | src/tests/test_typed_details.py:49-55 | a string for an integer member fails with a schema violation |
| Scenarios.DetailsExport | src/tests/test_typed_details.py:58-71 | the export of a typed instance, in order |
| Scenarios.TypelessDetails | src/tests/test_details.py:13-27 | explicit title and detail are kept. Integer 200 and the member for 200 give status 200, and a code with no status fails |

## Left out

- URI parsing (`URIBuilder.from_uri`, `finalize`) is not modelled. Inputs are already-split components, and `unsplit` is modelled as plain concatenation of the present components (`Identifiers.Unsplit`). Userinfo, port, query, fragment, percent-encoding, dot-segment removal and case normalisation are not modelled.
- JSON-Schema semantics (`validator_for`, `check_schema`, `validate`) are parameters, `Collaborators.wellFormed` and `Collaborators.satisfies`. `jsonschema.validate` checks the schema before the instance, so the model reports a malformed schema at value time as well (`SchemaError`).
- The `str.format` mini-language is restricted to literal text, `{{`/`}}` and `{name}`/`{name.sub}` placeholders. Conversions (`!r`), format specs (`:>10`) and indexing (`[0]`) are reported as `UnsupportedPlaceholder` rather than interpreted. A format spec that holds a nested replacement field (`{a:{b}}`) is reported as `MalformedTemplate`, where Python would format `a` with the spec read from `b`.
- Templates.Positional: only names made of the ASCII digits `0`-`9` are treated as positional. Python also treats a first segment of other Unicode decimal digits (such as `٣`) as a positional index and fails, where the model looks the name up in the data.
- `Box` internals are not modelled: key conversion, its own method names shadowing keys, and attribute access on non-mapping values. A placeholder segment finds only the keys of a nested mapping.
- Values.Display: the text of a non-string value is the foreign `show`, so the model promises nothing about it beyond strings being inserted as they are.
- Floating-point values are not part of the value tree.
- Error messages are not modelled, only the error kind and what it names. The message checks at src/tests/test_types.py:42-44, 50, 60 and 66 sit after the raising call inside `pytest.raises` and never run. The ones at src/tests/test_types.py:119 and src/tests/test_typed_details.py:44-46 and 55 do run, and the model keeps what they check: the missing segment `baa`, the member `baa` and the class name `ProblemType`, and a violation of the `integer` schema.
- The `HTTPStatus` member set is that of Python 3.11; other Python versions add or remove codes.
- Keyword arguments named `problem_type`, `title`, `detail` or `status` cannot be extension data in the source; the model's separate parameters make this structural. A data member named `data`, `type`, `title`, `detail` or `status` would be shadowed by the instance field on attribute access. The model's `InstanceFields` includes `data` for that reason.
- Class attributes reachable through `getattr` (methods such as `validate_data`) are not modelled as attributes.
- Subclassing is not modelled: the type name in the unknown-member error is always the class name `ProblemType`.
- The unknown-member error names the class (`type(self).__name__`), not the type's identifier.
- The independence of `format` from the type's extension is structural. `Templates.Format` does not take the type at all.

=== FILE: dicts.dfy ===
/** Python's `dict` with string keys: an insertion-ordered sequence of (key, value)
    pairs whose keys are pairwise distinct. Order matters to the model because the
    problem-details export yields extension members in insertion order. */
module Dicts {
  import opened Wrappers

  predicate DistinctKeys<V>(m: seq<(string, V)>) {
    forall i, j | 0 <= i < j < |m| :: m[i].0 != m[j].0
  }

  type Dict<V> = m: seq<(string, V)> | DistinctKeys(m) witness []

  /** The keys of `m`, in insertion order. */
  function Keys<V>(m: seq<(string, V)>): (ks: seq<string>)
    ensures |ks| == |m|
    ensures forall i | 0 <= i < |m| :: ks[i] == m[i].0
  {
    seq(|m|, i requires 0 <= i < |m| => m[i].0)
  }

  /** `m[k]`, or `None` where Python raises `KeyError`. */
  function Get<V>(m: seq<(string, V)>, k: string): (r: Option<V>)
    ensures r.None? <==> k !in Keys(m)
    ensures r.Some? ==> (k, r.value) in m
  {
    if m == [] then None
    else if m[0].0 == k then Some(m[0].1)
    else Get(m[1..], k)
  }

  /** In a dict every stored pair is what a lookup of its key returns, and nothing else is. */
  lemma {:induction false} GetExactly<V>(m: Dict<V>, k: string, v: V)
    ensures Get(m, k) == Some(v) <==> (k, v) in m
  {
    if m != [] && m[0].0 != k {
      var tail: Dict<V> := m[1..];
      GetExactly(tail, k, v);
    }
  }

  lemma GetEvery<V>(m: Dict<V>, k: string)
    ensures forall v :: Get(m, k) == Some(v) <==> (k, v) in m
  {
    forall v
      ensures Get(m, k) == Some(v) <==> (k, v) in m
    {
      GetExactly(m, k, v);
    }
  }

  /** The pair at position `i` of a dict is found by its key. */
  lemma GetAt<V>(m: Dict<V>, i: nat)
    requires i < |m|
    ensures Get(m, m[i].0) == Some(m[i].1)
  {
    assert m[i] in m;
    GetExactly(m, m[i].0, m[i].1);
  }
}

=== FILE: errors.dfy ===
/** The failure kinds of the core. Error messages are not modelled, only what each
    error names. */
module Errors {
  import opened Values

  /** Which allow-list rule rejected a normalised identifier. */
  datatype UriFault = MissingPath | SchemeNotAllowed | HostNotAllowed

  datatype Error =
    /** `ValueError` from `validate_identifier`, naming the normalised URI. */
    | InvalidIdentifier(uri: string, fault: UriFault)
    /** `ValueError` from `validate_extension`: a member name collides with a structural name. */
    | ReservedFieldName
    /** `TypeError` from `validate_extension`: the schema declared for `field` is malformed. */
    | InvalidSchema(field: string)
    /** The schema library's `SchemaError` when validating a value: its schema is malformed. */
    | SchemaError(schema: Schema)
    /** `ValueError` from `validate`: `field` is not declared by the problem type class `typeName`. */
    | UnknownExtensionField(field: string, typeName: string)
    /** The schema library's `ValidationError`: `value` does not satisfy `schema`. */
    | SchemaViolation(value: Value, schema: Schema)
    /** `AttributeError` from `format`: the placeholder segment `segment` does not resolve. */
    | MissingTemplateField(segment: string)
    /** `ValueError`/`IndexError` from `str.format`: a stray brace, an unterminated or empty
        placeholder, an empty attribute name or a positional placeholder. */
    | MalformedTemplate
    /** A placeholder using conversions, format specs or indexing, which the model leaves out. */
    | UnsupportedPlaceholder
    /** `ValueError` from `HTTPStatus(code)`. */
    | InvalidStatus(code: int)
    /** `AttributeError` from `ProblemDetails.__getattr__`. */
    | AttributeNotFound(name: string, typeName: string)
}

=== FILE: identifiers.dfy ===
/** Normalisation and allow-list validation of a problem type's identifying URI
    (`ProblemType.validate_identifier`). Parsing a string into components is the URI
    library's job and is not modelled: the operation starts from the parsed components. */
module Identifiers {
  import opened Wrappers
  import opened Errors

  const DefaultScheme: string := "https"
  const DefaultHost: string := "example.com"
  const AllowedSchemes: set<string> := {"about", "http", "https"}
  const AllowedHosts: set<string> := {"example.com"}

  /** The identifier of the blank type, used only when no identifier is given. */
  const BlankIdentifier: string := "about:blank"

  /** The shape of every identifier a problem type can hold: the blank sentinel, or an
      allowed scheme followed by the default host and a non-empty path. */
  predicate Canonical(s: string) {
    || s == BlankIdentifier
    || exists scheme | scheme in AllowedSchemes ::
         var prefix := scheme + "://" + DefaultHost;
         |s| > |prefix| && s[..|prefix|] == prefix
  }

  /** The components of a URI reference that the core reads or changes. */
  datatype Uri = Uri(scheme: Option<string>, host: Option<string>, path: Option<string>)

  /** Python truthiness of a component: absent and empty are the same. */
  predicate Present(c: Option<string>) {
    c.Some? && c.value != ""
  }

  /** Recomposition of the components into a URI string (`unsplit`). */
  function Unsplit(u: Uri): (r: string)
    ensures Present(u.scheme) ==> |r| > |u.scheme.value| && r[..|u.scheme.value| + 1] == u.scheme.value + ":"
    ensures Present(u.path) ==> |r| >= |u.path.value| && r[|r| - |u.path.value|..] == u.path.value
    ensures Present(u.scheme) && Present(u.host) ==>
      var k := |u.scheme.value| + 1;
      |r| >= k + 2 + |u.host.value| && r[k..k + 2 + |u.host.value|] == "//" + u.host.value
    ensures !Present(u.scheme) && !Present(u.host) ==> r == (if Present(u.path) then u.path.value else "")
  {
    (if Present(u.scheme) then u.scheme.value + ":" else "")
    + (if Present(u.host) then "//" + u.host.value else "")
    + (if Present(u.path) then u.path.value else "")
  }

  /** The fill-in rules: a host-less reference gets the default host (and a relative
      path a leading slash), then a scheme-less one gets the default scheme. */
  function Normalize(u: Uri): (r: Uri)
    ensures Present(r.scheme) && Present(r.host)
    ensures Present(u.scheme) ==> r.scheme == u.scheme
    ensures Present(u.host) ==> r.host == u.host && r.path == u.path
    ensures Present(r.path) <==> Present(u.path)
    ensures Present(r.path) ==> r.path.value == u.path.value || r.path.value == "/" + u.path.value
    ensures Present(r.path) && !Present(u.host) ==> r.path.value[0] == '/'
    ensures !Present(u.host) ==> r.host == Some(DefaultHost)
    ensures !Present(u.scheme) ==> r.scheme == Some(DefaultScheme)
    ensures Present(u.path) && u.path.value[0] == '/' ==> r.path == u.path
  {
    var located :=
      if Present(u.host) then u
      else
        var path := if Present(u.path) && u.path.value[0] != '/' then Some("/" + u.path.value) else u.path;
        u.(path := path, host := Some(DefaultHost));
    if Present(located.scheme) then located else located.(scheme := Some(DefaultScheme))
  }

  /** The allow-list rules, in the URI validator's order: path required, then the
      scheme, then the host. An absent scheme or host is not checked. */
  function Fault(u: Uri): (r: Option<UriFault>)
    ensures r.None? <==>
      && Present(u.path)
      && (u.scheme.Some? ==> u.scheme.value in AllowedSchemes)
      && (u.host.Some? ==> u.host.value in AllowedHosts)
    ensures !Present(u.path) ==> r == Some(MissingPath)
    ensures r == Some(SchemeNotAllowed) <==>
      Present(u.path) && u.scheme.Some? && u.scheme.value !in AllowedSchemes
    ensures r == Some(HostNotAllowed) <==>
      && Present(u.path)
      && (u.scheme.Some? ==> u.scheme.value in AllowedSchemes)
      && u.host.Some? && u.host.value !in AllowedHosts
  {
    if !Present(u.path) then Some(MissingPath)
    else if u.scheme.Some? && u.scheme.value !in AllowedSchemes then Some(SchemeNotAllowed)
    else if u.host.Some? && u.host.value !in AllowedHosts then Some(HostNotAllowed)
    else None
  }

  /** `validate_identifier`: normalise, check against the allow-lists, recompose. */
  function ValidateIdentifier(u: Uri): (r: Result<string, Error>)
    ensures r.Ok? <==>
      && Present(u.path)
      && (Present(u.scheme) ==> u.scheme.value in AllowedSchemes)
      && (Present(u.host) ==> u.host.value in AllowedHosts)
    ensures r.Ok? ==>
      var n := Normalize(u);
      && n.scheme.value in AllowedSchemes
      && n.path.value != ""
      && r.value == n.scheme.value + "://" + DefaultHost + n.path.value
    ensures r.Err? ==> r.error.InvalidIdentifier? && r.error.uri == Unsplit(Normalize(u))
  {
    var n := Normalize(u);
    match Fault(n)
    case Some(f) => Err(InvalidIdentifier(Unsplit(n), f))
    case None =>
      assert n.host.value in AllowedHosts;
      UnsplitFull(n);
      Ok(Unsplit(n))
  }

  /** With every component present, recomposition is `scheme://host` followed by the path. */
  lemma UnsplitFull(u: Uri)
    requires Present(u.scheme) && Present(u.host) && Present(u.path)
    ensures Unsplit(u) == u.scheme.value + "://" + u.host.value + u.path.value
  {
    var scheme, host, path := u.scheme.value, u.host.value, u.path.value;
    assert Unsplit(u) == scheme + ":" + ("//" + host) + path;
    assert scheme + ":" + ("//" + host) + path == scheme + "://" + host + path;
  }

  /** Every accepted identifier has the canonical shape. */
  lemma AcceptedIsCanonical(u: Uri)
    requires ValidateIdentifier(u).Ok?
    ensures Canonical(ValidateIdentifier(u).value)
  {
    var n := Normalize(u);
    var prefix := n.scheme.value + "://" + DefaultHost;
    assert ValidateIdentifier(u).value == prefix + n.path.value;
    assert ValidateIdentifier(u).value[..|prefix|] == prefix;
  }

  /** A bare path, relative or absolute, lands under the default scheme and host. */
  lemma FillsSchemeAndHost(p: string)
    requires p != ""
    ensures ValidateIdentifier(Uri(None, None, Some(p)))
         == Ok("https://example.com" + (if p[0] == '/' then p else "/" + p))
  {
    var n := Normalize(Uri(None, None, Some(p)));
    assert Unsplit(n) == "https" + ":" + ("//" + "example.com" + n.path.value);
    assert "https" + ":" + ("//" + "example.com" + n.path.value) == "https://example.com" + n.path.value;
  }

  /** A scheme-relative reference only gains the default scheme, and is accepted
      exactly when its host is allowed and it has a path. */
  lemma FillsSchemeOnly(h: string, p: Option<string>)
    requires h != ""
    ensures ValidateIdentifier(Uri(None, Some(h), p)).Ok? <==> h == DefaultHost && Present(p)
    ensures ValidateIdentifier(Uri(None, Some(h), p)).Ok? ==>
      ValidateIdentifier(Uri(None, Some(h), p)).value == "https://" + h + p.value
  {
  }

  /** A reference without a path fails on the path rule, whatever else it has. */
  lemma RejectsMissingPath(u: Uri)
    requires !Present(u.path)
    ensures ValidateIdentifier(u).Err? && ValidateIdentifier(u).error.fault == MissingPath
  {
  }

  /** With a path, a disallowed scheme is rejected by the scheme rule. */
  lemma RejectsScheme(u: Uri)
    requires Present(u.path) && Present(u.scheme) && u.scheme.value !in AllowedSchemes
    ensures ValidateIdentifier(u).Err? && ValidateIdentifier(u).error.fault == SchemeNotAllowed
  {
  }

  /** With a path and an allowed scheme, a disallowed host is rejected by the host rule. */
  lemma RejectsHost(u: Uri)
    requires Present(u.path) && Present(u.host) && u.host.value !in AllowedHosts
    requires Present(u.scheme) ==> u.scheme.value in AllowedSchemes
    ensures ValidateIdentifier(u).Err? && ValidateIdentifier(u).error.fault == HostNotAllowed
  {
  }

  /** Normalising twice changes nothing, and validating normalised components gives
      the same outcome as validating the originals. */
  lemma NormalizeIdempotent(u: Uri)
    ensures Normalize(Normalize(u)) == Normalize(u)
    ensures ValidateIdentifier(Normalize(u)) == ValidateIdentifier(u)
  {
  }

  /** Position of the first colon of `w`, or `|w|` when there is none. */
  function ColonAt(w: string): (i: nat)
    ensures i <= |w|
  {
    if w == [] || w[0] == ':' then 0 else 1 + ColonAt(w[1..])
  }

  lemma {:induction false} ColonAfter(s: string, t: string)
    requires ':' !in s
    ensures ColonAt(s + ":" + t) == |s|
  {
    if s != [] {
      assert (s + ":" + t)[1..] == s[1..] + ":" + t;
      ColonAfter(s[1..], t);
    }
  }

  /** Allowed schemes are told apart by the text before the first colon. */
  lemma {:induction false} SchemePrefix(s1: string, s2: string, t1: string, t2: string)
    requires s1 in AllowedSchemes && s2 in AllowedSchemes
    requires s1 + ":" + t1 == s2 + ":" + t2
    ensures s1 == s2 && t1 == t2
  {
    var w := s1 + ":" + t1;
    ColonAfter(s1, t1);
    ColonAfter(s2, t2);
    assert w[..|s1|] == s1 && w[..|s2|] == s2;
    assert t1 == w[|s1| + 1..] == t2;
  }

  /** The parts an accepted identifier is made of. */
  lemma AcceptedShape(u: Uri)
    requires ValidateIdentifier(u).Ok?
    ensures var n := Normalize(u);
      && n.scheme.Some? && n.path.Some?
      && n.host == Some(DefaultHost)
      && ValidateIdentifier(u).value == n.scheme.value + ":" + ("//" + DefaultHost + n.path.value)
  {
    var n := Normalize(u);
    assert Fault(n).None? && ValidateIdentifier(u).value == Unsplit(n);
    assert n.host.value in AllowedHosts;
    var scheme, host, path := n.scheme.value, n.host.value, n.path.value;
    assert Unsplit(n) == scheme + ":" + ("//" + host) + path;
    assert scheme + ":" + ("//" + host) + path == scheme + ":" + ("//" + host + path);
  }

  lemma PrefixCancel(h: string, a: string, b: string)
    requires h + a == h + b
    ensures a == b
  {
    assert a == (h + a)[|h|..];
    assert b == (h + b)[|h|..];
  }

  /** An accepted identifier string determines the normalised components it came from,
      so reading it back and validating again reproduces it. */
  lemma CanonicalReading(u1: Uri, u2: Uri, s: string)
    requires ValidateIdentifier(u1) == Ok(s) && ValidateIdentifier(u2) == Ok(s)
    ensures Normalize(u1) == Normalize(u2)
  {
    var n1, n2 := Normalize(u1), Normalize(u2);
    AcceptedShape(u1);
    AcceptedShape(u2);
    var h := "//" + DefaultHost;
    SchemePrefix(n1.scheme.value, n2.scheme.value, h + n1.path.value, h + n2.path.value);
    PrefixCancel(h, n1.path.value, n2.path.value);
  }

  /** The blank sentinel is never the outcome of validation: every accepted identifier
      carries the default host, which the sentinel lacks. */
  lemma NeverBlank(u: Uri)
    ensures ValidateIdentifier(u) != Ok(BlankIdentifier)
  {
    if ValidateIdentifier(u).Ok? {
      var n := Normalize(u);
      assert |n.scheme.value| >= 4;
    }
  }
}

=== FILE: problem_details.dfy ===
/** `ProblemDetails`: one occurrence of a problem type, carrying validated extension
    data, resolved title and detail, and an optional HTTP status. */
module Details {
  import opened Wrappers
  import opened Dicts
  import opened Values
  import opened Errors
  import opened Statuses
  import Types
  import Templates

  /** The class name the missing-attribute error reports. */
  const ClassName: string := "ProblemDetails"

  /** The attributes an instance holds itself; any other name is looked up in its data. */
  const InstanceFields: set<string> := {"type", "data", "title", "detail", "status"}

  /** The keys the export always starts with, in order. */
  const ExportHead: seq<string> := ["type", "title", "detail", "status"]

  datatype ProblemDetails = ProblemDetails(
    ptype: Types.ProblemType,
    data: Dict<Value>,
    title: string,
    detail: string,
    status: Option<HttpStatus>)

  /** The type an instance gets: the given one, or a fresh blank type. */
  function TypeOf(problemType: Option<Types.ProblemType>): (r: Types.ProblemType)
    ensures problemType.Some? ==> r == problemType.value
    ensures problemType.None? ==>
      Types.ToString(r) == "about:blank" && r.title == "" && r.detail == "" && r.extension == []
  {
    if problemType.None? then Types.Blank() else problemType.value
  }

  /** The template a text field is formatted from: the explicit one, else the type's. */
  function Chosen(given: Option<string>, fallback: string): string {
    if given.None? then fallback else given.value
  }

  /** Position of the first supplied member its type rejects, or `|values|`. */
  function FirstRejected(env: Collaborators, t: Types.ProblemType, values: seq<(string, Value)>): (i: nat)
    ensures i <= |values|
    ensures forall j | 0 <= j < i :: Types.Validate(env, t, values[j].0, values[j].1).Ok?
    ensures i < |values| ==> Types.Validate(env, t, values[i].0, values[i].1).Err?
  {
    if values == [] || Types.Validate(env, t, values[0].0, values[0].1).Err? then 0
    else
      var tail := values[1..];
      var i := FirstRejected(env, t, tail);
      assert forall j | 1 <= j <= i && j < |values| :: values[j] == tail[j - 1];
      1 + i
  }

  /** `validate_data`: every supplied member validated against the type, in the order
      given; the first rejection is the error, and on success the data is exactly what
      was supplied. */
  function ValidateData(env: Collaborators, t: Types.ProblemType, values: Dict<Value>): (r: Result<Dict<Value>, Error>)
    ensures var i := FirstRejected(env, t, values);
      if i == |values| then r == Ok(values)
      else r == Err(Types.Validate(env, t, values[i].0, values[i].1).error)
    decreases |values|
  {
    if values == [] then Ok([])
    else
      var field := values[0].0;
      var value :- Types.Validate(env, t, field, values[0].1);
      var tail: Dict<Value> := values[1..];
      var rest :- ValidateData(env, t, tail);
      assert [(field, value)] + rest == values;
      Ok([(field, value)] + rest)
  }

  /** Every data member is declared by the type and meets its schema. */
  predicate Conforms(env: Collaborators, d: ProblemDetails) {
    forall i | 0 <= i < |d.data| :: Types.Validate(env, d.ptype, d.data[i].0, d.data[i].1).Ok?
  }

  /** `ProblemDetails(problem_type=..., title=..., detail=..., status=..., **values)`;
      `None` stands for an omitted argument. Runs in the source's order: pick the type,
      validate the data, format the title, format the detail, coerce the status. */
  function Construct(env: Collaborators, problemType: Option<Types.ProblemType>,
                     title: Option<string>, detail: Option<string>, status: Option<StatusArg>,
                     values: Dict<Value>): (r: Result<ProblemDetails, Error>)
    ensures r.Ok? ==> r.value.ptype == TypeOf(problemType)
    ensures r.Ok? ==> r.value.data == values && Conforms(env, r.value)
    ensures r.Ok? ==> forall i | 0 <= i < |values| :: values[i].0 in Keys(r.value.ptype.extension)
    ensures r.Ok? ==> Templates.Format(env, Chosen(title, TypeOf(problemType).title), values) == Ok(r.value.title)
    ensures r.Ok? ==> Templates.Format(env, Chosen(detail, TypeOf(problemType).detail), values) == Ok(r.value.detail)
    ensures r.Ok? ==> Coerce(status) == Ok(r.value.status)
    ensures r.Ok? <==>
      && ValidateData(env, TypeOf(problemType), values).Ok?
      && Templates.Format(env, Chosen(title, TypeOf(problemType).title), values).Ok?
      && Templates.Format(env, Chosen(detail, TypeOf(problemType).detail), values).Ok?
      && Coerce(status).Ok?
    ensures ValidateData(env, TypeOf(problemType), values).Err? ==>
      r == Err(ValidateData(env, TypeOf(problemType), values).error)
    ensures ValidateData(env, TypeOf(problemType), values).Ok? ==>
      var titled := Templates.Format(env, Chosen(title, TypeOf(problemType).title), values);
      var detailed := Templates.Format(env, Chosen(detail, TypeOf(problemType).detail), values);
      && (titled.Err? ==> r == Err(titled.error))
      && (titled.Ok? && detailed.Err? ==> r == Err(detailed.error))
      && (titled.Ok? && detailed.Ok? && Coerce(status).Err? ==> r == Err(Coerce(status).error))
  {
    var t := TypeOf(problemType);
    var data :- ValidateData(env, t, values);
    var titleText :- Templates.Format(env, Chosen(title, t.title), data);
    var detailText :- Templates.Format(env, Chosen(detail, t.detail), data);
    var code :- Coerce(status);
    Ok(ProblemDetails(t, data, titleText, detailText, code))
  }

  /** The export value of a status: `None`, or the code. */
  function StatusValue(s: Option<HttpStatus>): Value {
    if s.None? then Null else Int(s.value)
  }

  /** `__iter__`: the four structural items, then the data in insertion order. */
  function Export(d: ProblemDetails): (r: seq<(string, Value)>)
    ensures |r| == 4 + |d.data|
    ensures forall i | 0 <= i < 4 :: r[i].0 == ExportHead[i]
    ensures r[4..] == d.data
  {
    [("type", Str(d.ptype.identifier)), ("title", Str(d.title)), ("detail", Str(d.detail)),
     ("status", StatusValue(d.status))] + d.data
  }

  /** What an attribute read returns. */
  datatype Attribute =
    | TypeAttr(ptype: Types.ProblemType)
    | DataAttr(data: Dict<Value>)
    | TextAttr(text: string)
    | StatusAttr(status: Option<HttpStatus>)
    | MemberAttr(value: Value)

  /** Attribute access: the instance's own fields first, then `__getattr__`'s fallback
      to the data. */
  function GetAttr(d: ProblemDetails, name: string): (r: Result<Attribute, Error>)
    ensures name in InstanceFields ==> r.Ok? && !r.value.MemberAttr?
    ensures name == "type" ==> r == Ok(TypeAttr(d.ptype))
    ensures name == "data" ==> r == Ok(DataAttr(d.data))
    ensures name == "title" ==> r == Ok(TextAttr(d.title))
    ensures name == "detail" ==> r == Ok(TextAttr(d.detail))
    ensures name == "status" ==> r == Ok(StatusAttr(d.status))
    ensures name !in InstanceFields ==> (r.Ok? <==> name in Keys(d.data))
    ensures r.Err? ==> r.error == AttributeNotFound(name, ClassName)
  {
    if name == "type" then Ok(TypeAttr(d.ptype))
    else if name == "data" then Ok(DataAttr(d.data))
    else if name == "title" then Ok(TextAttr(d.title))
    else if name == "detail" then Ok(TextAttr(d.detail))
    else if name == "status" then Ok(StatusAttr(d.status))
    else
      match Get(d.data, name)
      case Some(v) => Ok(MemberAttr(v))
      case None => Err(AttributeNotFound(name, ClassName))
  }

  /** Any name that is not an instance field reads exactly the supplied data. */
  lemma GetAttrData(d: ProblemDetails, name: string, v: Value)
    requires name !in InstanceFields
    ensures GetAttr(d, name) == Ok(MemberAttr(v)) <==> (name, v) in d.data
  {
    GetExactly(d.data, name, v);
  }

  /** A member the type declares but the instance was not given is not an attribute. */
  lemma DeclaredButAbsent(d: ProblemDetails, name: string)
    requires name !in InstanceFields && name in Keys(d.ptype.extension) && name !in Keys(d.data)
    ensures GetAttr(d, name) == Err(AttributeNotFound(name, ClassName))
  {
  }

  /** The structural keys never clash with data keys of a valid type's instance. */
  lemma {:induction false} HeadDisjoint(env: Collaborators, d: ProblemDetails, i: nat)
    requires Types.Valid(env, d.ptype)
    requires forall j | 0 <= j < |d.data| :: d.data[j].0 in Keys(d.ptype.extension)
    requires i < |d.data|
    ensures d.data[i].0 !in ExportHead
  {
    var ext := d.ptype.extension;
    assert d.data[i].0 in Keys(ext);
    var k :| 0 <= k < |ext| && Keys(ext)[k] == d.data[i].0;
    assert ext[k].0 !in Types.ReservedNames;
  }

  /** For an instance of a valid type whose data is declared, no key of the export
      appears twice. */
  lemma ExportDistinct(env: Collaborators, d: ProblemDetails)
    requires Types.Valid(env, d.ptype)
    requires forall j | 0 <= j < |d.data| :: d.data[j].0 in Keys(d.ptype.extension)
    ensures DistinctKeys(Export(d))
  {
    var r := Export(d);
    forall a, b | 0 <= a < b < |r|
      ensures r[a].0 != r[b].0
    {
      KeysDiffer(env, d, a, b);
    }
  }

  lemma KeysDiffer(env: Collaborators, d: ProblemDetails, a: nat, b: nat)
    requires Types.Valid(env, d.ptype)
    requires forall j | 0 <= j < |d.data| :: d.data[j].0 in Keys(d.ptype.extension)
    requires a < b < |Export(d)|
    ensures Export(d)[a].0 != Export(d)[b].0
  {
    var r := Export(d);
    if b >= 4 {
      assert r[b] == d.data[b - 4];
      HeadDisjoint(env, d, b - 4);
      if a >= 4 {
        assert r[a] == d.data[a - 4];
      }
    } else {
      assert |r[0].0| == 4 && |r[1].0| == 5 && |r[2].0| == 6 && |r[3].0| == 6;
      assert r[2].0[0] != r[3].0[0];
    }
  }

  /** ... so the export is a proper dict: each structural key is bound to its field and
      each data member to its value. */
  lemma ExportIsDict(env: Collaborators, d: ProblemDetails)
    requires Types.Valid(env, d.ptype)
    requires forall j | 0 <= j < |d.data| :: d.data[j].0 in Keys(d.ptype.extension)
    ensures DistinctKeys(Export(d))
    ensures Get(Export(d), "type") == Some(Str(d.ptype.identifier))
    ensures Get(Export(d), "title") == Some(Str(d.title))
    ensures Get(Export(d), "detail") == Some(Str(d.detail))
    ensures Get(Export(d), "status") == Some(StatusValue(d.status))
    ensures forall j | 0 <= j < |d.data| :: Get(Export(d), d.data[j].0) == Some(d.data[j].1)
  {
    ExportDistinct(env, d);
    var r := Export(d);
    GetAt(r, 0);
    GetAt(r, 1);
    GetAt(r, 2);
    GetAt(r, 3);
    forall j | 0 <= j < |d.data|
      ensures Get(r, d.data[j].0) == Some(d.data[j].1)
    {
      ExportMember(d, r, j);
    }
  }

  lemma ExportMember(d: ProblemDetails, r: Dict<Value>, j: nat)
    requires r == Export(d) && j < |d.data|
    ensures Get(r, d.data[j].0) == Some(d.data[j].1)
  {
    assert r[j + 4] == d.data[j];
    GetAt(r, j + 4);
  }

  /** The keys of the export: the structural ones, then the data's. */
  lemma ExportKeys(d: ProblemDetails)
    ensures Keys(Export(d)) == ExportHead + Keys(d.data)
  {
    var r := Export(d);
    assert Keys(r)[..4] == ExportHead;
    assert Keys(r)[4..] == Keys(d.data) by {
      forall i | 0 <= i < |d.data|
        ensures Keys(r)[4..][i] == Keys(d.data)[i]
      {
        assert r[i + 4] == d.data[i];
      }
    }
    assert Keys(r) == Keys(r)[..4] + Keys(r)[4..];
  }

  /** A construction that succeeds exports exactly the structural keys followed by the
      supplied members, in the order supplied, as a proper dict. */
  lemma ConstructedExport(env: Collaborators, problemType: Option<Types.ProblemType>,
                          title: Option<string>, detail: Option<string>, status: Option<StatusArg>,
                          values: Dict<Value>)
    requires Types.Valid(env, TypeOf(problemType))
    requires Construct(env, problemType, title, detail, status, values).Ok?
    ensures var d := Construct(env, problemType, title, detail, status, values).value;
      && Keys(Export(d)) == ExportHead + Keys(values)
      && Export(d)[4..] == values
      && DistinctKeys(Export(d))
  {
    ExportDistinct(env, Construct(env, problemType, title, detail, status, values).value);
    ExportKeys(Construct(env, problemType, title, detail, status, values).value);
  }

  /** Data errors come before template errors: an undeclared member fails construction
      with the member's name even when the title cannot be formatted. */
  lemma {:induction false} DataBeforeTemplates(env: Collaborators, problemType: Option<Types.ProblemType>,
                            title: Option<string>, detail: Option<string>, status: Option<StatusArg>,
                            values: Dict<Value>, i: nat)
    requires i < |values|
    requires forall j | 0 <= j < i :: Types.Validate(env, TypeOf(problemType), values[j].0, values[j].1).Ok?
    requires values[i].0 !in Keys(TypeOf(problemType).extension)
    ensures Construct(env, problemType, title, detail, status, values)
         == Err(UnknownExtensionField(values[i].0, Types.ClassName))
  {
    var t := TypeOf(problemType);
    assert FirstRejected(env, t, values) == i by {
      FirstRejectedIs(env, t, values, i);
    }
  }

  lemma {:induction false} FirstRejectedIs(env: Collaborators, t: Types.ProblemType, values: seq<(string, Value)>, i: nat)
    requires i < |values|
    requires forall j | 0 <= j < i :: Types.Validate(env, t, values[j].0, values[j].1).Ok?
    requires Types.Validate(env, t, values[i].0, values[i].1).Err?
    ensures FirstRejected(env, t, values) == i
  {
  }

  /** An explicit title or detail without placeholders is used verbatim, whatever the
      type's own templates say. */
  lemma ExplicitPlainText(env: Collaborators, problemType: Option<Types.ProblemType>,
                          title: string, detail: string, status: Option<StatusArg>, values: Dict<Value>)
    requires Templates.NoBraces(title) && Templates.NoBraces(detail)
    requires Construct(env, problemType, Some(title), Some(detail), status, values).Ok?
    ensures Construct(env, problemType, Some(title), Some(detail), status, values).value.title == title
    ensures Construct(env, problemType, Some(title), Some(detail), status, values).value.detail == detail
  {
  }

  /** With no arguments at all, construction gives the blank instance. */
  lemma BlankInstance(env: Collaborators)
    ensures Construct(env, None, None, None, None, [])
         == Ok(ProblemDetails(Types.Blank(), [], "", "", None))
    ensures Export(ProblemDetails(Types.Blank(), [], "", "", None))
         == [("type", Str("about:blank")), ("title", Str("")), ("detail", Str("")), ("status", Null)]
  {
  }
}

=== FILE: problem_types.dfy ===
/** `ProblemType`: a reusable error category with an identifier, title and detail
    templates, and an extension schema declaring which members its instances carry. */
module Types {
  import opened Wrappers
  import opened Dicts
  import opened Values
  import opened Errors
  import opened Identifiers

  /** Names an extension member may not have: they collide with structural fields. */
  const ReservedNames: set<string> :=
    {"detail", "extension", "identifier", "instance", "status", "title", "type"}

  /** The attributes of a problem type, in declaration order. */
  const Slots: seq<string> := ["identifier", "title", "detail", "extension"]

  /** The class name the unknown-member error reports. */
  const ClassName: string := "ProblemType"

  /** Extension member name to schema, in declaration order. */
  type Extension = Dict<Schema>

  datatype ProblemType = ProblemType(identifier: string, title: string, detail: string, extension: Extension)

  /** What construction guarantees of every problem type. */
  predicate Valid(env: Collaborators, t: ProblemType) {
    && Canonical(t.identifier)
    && forall i | 0 <= i < |t.extension| ::
         t.extension[i].0 !in ReservedNames && env.wellFormed(t.extension[i].1)
  }

  /** The type used when none is given. */
  function Blank(): (r: ProblemType)
    ensures r.identifier == BlankIdentifier && Canonical(r.identifier)
    ensures r.title == "" && r.detail == "" && r.extension == []
  {
    ProblemType(BlankIdentifier, "", "", [])
  }

  predicate HasReservedName(ext: Extension) {
    exists i | 0 <= i < |ext| :: ext[i].0 in ReservedNames
  }

  /** Position of the first member whose schema is malformed, or `|ext|`. */
  function FirstIllFormed(env: Collaborators, ext: seq<(string, Schema)>): (i: nat)
    ensures i <= |ext|
    ensures forall j | 0 <= j < i :: env.wellFormed(ext[j].1)
    ensures i < |ext| ==> !env.wellFormed(ext[i].1)
  {
    if ext == [] || !env.wellFormed(ext[0].1) then 0
    else 1 + FirstIllFormed(env, ext[1..])
  }

  /** `validate_extension`: reserved names are rejected before any schema is looked
      at; then the schemas are checked in declaration order, the first malformed one
      naming its member; an accepted extension is kept unchanged. */
  function ValidateExtension(env: Collaborators, ext: Extension): (r: Result<Extension, Error>)
    ensures HasReservedName(ext) ==> r == Err(ReservedFieldName)
    ensures r.Ok? <==> forall i | 0 <= i < |ext| :: ext[i].0 !in ReservedNames && env.wellFormed(ext[i].1)
    ensures r.Ok? ==> r.value == ext
    ensures !HasReservedName(ext) && r.Err? ==> r.error.InvalidSchema?
    ensures r.Err? && r.error.InvalidSchema? ==>
      exists i | 0 <= i < |ext| ::
        && r.error.field == ext[i].0
        && !env.wellFormed(ext[i].1)
        && forall j | 0 <= j < i :: env.wellFormed(ext[j].1)
  {
    if HasReservedName(ext) then Err(ReservedFieldName)
    else
      var i := FirstIllFormed(env, ext);
      if i < |ext| then Err(InvalidSchema(ext[i].0)) else Ok(ext)
  }

  /** The identifier a new type gets: the blank sentinel when none is given. */
  function IdentifierOf(identifier: Option<Uri>): (r: Result<string, Error>)
    ensures r.Ok? ==> Canonical(r.value)
    ensures identifier.None? ==> r == Ok(BlankIdentifier)
    ensures identifier.Some? ==> r == ValidateIdentifier(identifier.value)
  {
    match identifier
    case None => Ok(BlankIdentifier)
    case Some(u) =>
      var r := ValidateIdentifier(u);
      if r.Ok? then AcceptedIsCanonical(u); r else r
  }

  /** `ProblemType(identifier, title, detail, extension=...)`; `None` stands for an
      omitted argument. The identifier is validated first, then the extension. */
  function Construct(env: Collaborators, identifier: Option<Uri>, title: string, detail: string,
                     extension: Option<Extension>): (r: Result<ProblemType, Error>)
    ensures r.Ok? ==> Valid(env, r.value)
    ensures r.Ok? ==> r.value.title == title && r.value.detail == detail
    ensures identifier.None? ==> r.Err? || r.value.identifier == BlankIdentifier
    ensures identifier.Some? ==>
      match ValidateIdentifier(identifier.value)
      case Err(e) => r == Err(e)
      case Ok(s) => r.Err? || r.value.identifier == s
    ensures r.Ok? <==>
      && (identifier.Some? ==> ValidateIdentifier(identifier.value).Ok?)
      && (extension.Some? ==> ValidateExtension(env, extension.value).Ok?)
    ensures r.Ok? ==> r.value.extension == (if extension.None? then [] else extension.value)
    ensures IdentifierOf(identifier).Ok? && extension.Some? && ValidateExtension(env, extension.value).Err? ==>
      r == Err(ValidateExtension(env, extension.value).error)
  {
    var id :- IdentifierOf(identifier);
    var ext :- if extension.None? then Ok([]) else ValidateExtension(env, extension.value);
    Ok(ProblemType(id, title, detail, ext))
  }

  /** `validate_value`: the schema library first checks the schema, then the value;
      an accepted value is returned unchanged. */
  function ValidateValue(env: Collaborators, value: Value, schema: Schema): (r: Result<Value, Error>)
    ensures r.Ok? <==> env.wellFormed(schema) && env.satisfies(value, schema)
    ensures r.Ok? ==> r.value == value
    ensures !env.wellFormed(schema) ==> r == Err(SchemaError(schema))
    ensures env.wellFormed(schema) && !env.satisfies(value, schema) ==> r == Err(SchemaViolation(value, schema))
  {
    if !env.wellFormed(schema) then Err(SchemaError(schema))
    else if env.satisfies(value, schema) then Ok(value)
    else Err(SchemaViolation(value, schema))
  }

  /** `validate(field, value)`: the member must be declared, and the value must meet
      its schema; an accepted value is returned unchanged. */
  function Validate(env: Collaborators, t: ProblemType, field: string, value: Value): (r: Result<Value, Error>)
    ensures field !in Keys(t.extension) ==> r == Err(UnknownExtensionField(field, ClassName))
    ensures r.Ok? ==> r.value == value
    ensures r.Ok? <==> exists schema | (field, schema) in t.extension ::
      env.wellFormed(schema) && env.satisfies(value, schema)
    ensures forall schema | (field, schema) in t.extension :: r == ValidateValue(env, value, schema)
  {
    match Get(t.extension, field)
    case None => Err(UnknownExtensionField(field, ClassName))
    case Some(schema) =>
      GetEvery(t.extension, field);
      ValidateValue(env, value, schema)
  }

  /** The value of a named attribute (`getattr`). */
  datatype Attribute = Text(s: string) | Schemas(extension: Extension)

  function Attr(t: ProblemType, name: string): (r: Option<Attribute>)
    ensures r.Some? <==> name in Slots
  {
    if name == "identifier" then Some(Text(t.identifier))
    else if name == "title" then Some(Text(t.title))
    else if name == "detail" then Some(Text(t.detail))
    else if name == "extension" then Some(Schemas(t.extension))
    else None
  }

  /** `__dict__` / `__iter__`: every slot with its value, in slot order. */
  function Items(t: ProblemType): (r: seq<(string, Attribute)>)
    ensures Keys(r) == Slots
    ensures forall i | 0 <= i < |r| :: Attr(t, r[i].0) == Some(r[i].1)
  {
    seq(|Slots|, i requires 0 <= i < |Slots| => (Slots[i], Attr(t, Slots[i]).value))
  }

  /** `str(t)`: the identifier. */
  function ToString(t: ProblemType): (r: string)
    ensures r == t.identifier && Attr(t, "identifier") == Some(Text(r))
  {
    t.identifier
  }

  /** The attribute view lists the identifier, title, detail and extension in that order,
      and its first entry is the string form. */
  lemma ItemsInOrder(t: ProblemType)
    ensures Items(t) == [("identifier", Text(t.identifier)), ("title", Text(t.title)),
                         ("detail", Text(t.detail)), ("extension", Schemas(t.extension))]
    ensures Items(t)[0] == ("identifier", Text(ToString(t)))
  {
  }

  /** Constructing with every argument omitted gives the blank type, which satisfies the
      invariant whatever the schema library. */
  lemma BlankConstruction(env: Collaborators)
    ensures Construct(env, None, "", "", None) == Ok(Blank())
    ensures Valid(env, Blank())
    ensures ToString(Blank()) == "about:blank"
  {
  }

  /** A reserved member name is rejected even when a schema is also malformed. */
  lemma ReservedBeforeSchemas(env: Collaborators, ext: Extension, name: string)
    requires name in ReservedNames && name in Keys(ext)
    ensures ValidateExtension(env, ext) == Err(ReservedFieldName)
  {
    var i :| 0 <= i < |ext| && Keys(ext)[i] == name;
    assert ext[i].0 in ReservedNames;
  }

  /** An undeclared member is rejected whatever its value. */
  lemma UnknownMember(env: Collaborators, t: ProblemType, field: string, value: Value)
    requires field !in Keys(t.extension)
    ensures Validate(env, t, field, value) == Err(UnknownExtensionField(field, ClassName))
  {
  }
}

=== FILE: scenarios.dfy ===
/** The behaviours the repository's tests exercise, stated on concrete inputs. JSON-Schema
    semantics are fixed here to a small stand-in: a schema is well formed when it is an
    object, and `{"type": "string"}` / `{"type": "integer"}` admit strings / integers. */
module Scenarios {
  import opened Wrappers
  import opened Dicts
  import opened Values
  import opened Errors
  import opened Identifiers
  import opened Statuses
  import Types
  import Templates
  import Details

  function TypeTag(s: Schema): Option<Value> {
    Values.Member(s, "type")
  }

  predicate Admits(v: Value, s: Schema) {
    match TypeTag(s)
    case Some(Str(tag)) =>
      if tag == "string" then v.Str?
      else if tag == "integer" then v.Int?
      else true
    case _ => true
  }

  /** The stand-in schema library. */
  function Env(): Collaborators {
    Collaborators((s: Schema) => s.Obj?, (v: Value, s: Schema) => Admits(v, s), (v: Value) => "")
  }

  function StringSchema(): Schema { Obj([("type", Str("string"))]) }
  function IntegerSchema(): Schema { Obj([("type", Str("integer"))]) }

  /** `{"foo": {"type": "string"}, "baz": {"type": "integer"}}` */
  function FooBaz(): Types.Extension {
    [("foo", StringSchema()), ("baz", IntegerSchema())]
  }

  /** `ProblemType(extension=FooBaz())` */
  lemma TypedBlank()
    ensures Types.Construct(Env(), None, "", "", Some(FooBaz()))
         == Ok(Types.ProblemType(BlankIdentifier, "", "", FooBaz()))
  {
  }

  // ---------------------------------------------------------------------------
  // Problem types

  lemma BlankType()
    ensures Types.Construct(Env(), None, "", "", None) == Ok(Types.ProblemType("about:blank", "", "", []))
    ensures Types.ToString(Types.Construct(Env(), None, "", "", None).value) == "about:blank"
  {
  }

  /** `ProblemType(identifier="")` is rejected: there is no path. */
  lemma EmptyIdentifier()
    ensures Types.Construct(Env(), Some(Uri(None, None, Some(""))), "", "", None)
         == Err(InvalidIdentifier("https://example.com", MissingPath))
  {
    IdentifierTexts();
    var n := Normalize(Uri(None, None, Some("")));
    assert n == Uri(Some("https"), Some("example.com"), Some(""));
    assert Unsplit(n) == "https" + ":" + ("//" + "example.com") + "";
  }

  /** `//example.com/baz` gains the default scheme. */
  lemma SchemeRelative()
    ensures Types.Construct(Env(), Some(Uri(None, Some("example.com"), Some("/baz"))), "", "", None)
         == Ok(Types.ProblemType("https://example.com/baz", "", "", []))
  {
    IdentifierTexts();
    FillsSchemeOnly("example.com", Some("/baz"));
    assert ValidateIdentifier(Uri(None, Some("example.com"), Some("/baz"))) == Ok("https://example.com/baz");
  }

  /** `foo/bar` and `/foo/bar` both become `https://example.com/foo/bar`. */
  lemma BarePaths()
    ensures ValidateIdentifier(Uri(None, None, Some("foo/bar"))) == Ok("https://example.com/foo/bar")
    ensures ValidateIdentifier(Uri(None, None, Some("/foo/bar"))) == Ok("https://example.com/foo/bar")
  {
    IdentifierTexts();
    FillsSchemeAndHost("foo/bar");
    FillsSchemeAndHost("/foo/bar");
  }

  /** `https://foo.bar/baz` has a host outside the allow-list. */
  lemma ForeignHost()
    ensures ValidateIdentifier(Uri(Some("https"), Some("foo.bar"), Some("/baz"))).error.fault == HostNotAllowed
  {
    RejectsHost(Uri(Some("https"), Some("foo.bar"), Some("/baz")));
  }

  /** `https://example.com` has no path. */
  lemma NoPath()
    ensures ValidateIdentifier(Uri(Some("https"), Some("example.com"), None)).error.fault == MissingPath
  {
    RejectsMissingPath(Uri(Some("https"), Some("example.com"), None));
  }

  /** Passing the blank identifier explicitly does not give the blank type: `about:blank`
      reads as scheme `about` and path `blank`, which gains the default host. */
  lemma ExplicitBlank()
    ensures ValidateIdentifier(Uri(Some("about"), None, Some("blank"))) == Ok("about://example.com/blank")
  {
    IdentifierTexts();
    var n := Normalize(Uri(Some("about"), None, Some("blank")));
    assert n == Uri(Some("about"), Some("example.com"), Some("/" + "blank"));
    assert Unsplit(n) == "about" + ":" + ("//" + "example.com") + ("/" + "blank");
  }

  /** The literal texts the identifier scenarios put together. */
  lemma IdentifierTexts()
    ensures "https" + ":" + ("//" + "example.com") + "" == "https://example.com"
    ensures "https://" + "example.com" + "/baz" == "https://example.com/baz"
    ensures "https://example.com" + ("/" + "foo/bar") == "https://example.com/foo/bar"
    ensures "https://example.com" + "/foo/bar" == "https://example.com/foo/bar"
    ensures "foo/bar"[0] != '/' && "/foo/bar"[0] == '/' && "blank"[0] != '/'
    ensures "about" + ":" + ("//" + "example.com") + ("/" + "blank") == "about://example.com/blank"
  {
  }

  /** Every reserved name is rejected as an extension member. */
  lemma ReservedMembers(name: string)
    requires name in Types.ReservedNames
    ensures Types.Construct(Env(), None, "", "", Some([(name, Obj([]))])) == Err(ReservedFieldName)
  {
    assert Keys([(name, Obj([]))]) == [name];
    Types.ReservedBeforeSchemas(Env(), [(name, Obj([]))], name);
  }

  /** `{"foo": []}` is not a schema. */
  lemma ArraySchema()
    ensures Types.Construct(Env(), None, "", "", Some([("foo", Arr([]))])) == Err(InvalidSchema("foo"))
  {
    assert !Types.HasReservedName([("foo", Arr([]))]);
  }

  lemma TypeItems()
    ensures Types.Items(Types.ProblemType("https://example.com/foo", "Foo problem", "Foo fighters attack",
                                          [("bar", Obj([])), ("baz", Obj([]))]))
         == [("identifier", Types.Text("https://example.com/foo")), ("title", Types.Text("Foo problem")),
             ("detail", Types.Text("Foo fighters attack")),
             ("extension", Types.Schemas([("bar", Obj([])), ("baz", Obj([]))]))]
  {
    Types.ItemsInOrder(Types.ProblemType("https://example.com/foo", "Foo problem", "Foo fighters attack",
                                         [("bar", Obj([])), ("baz", Obj([]))]));
  }

  // ---------------------------------------------------------------------------
  // Templates

  lemma FormatSimple()
    ensures Templates.Format(Env(), "test {foo}", [("foo", Str("bar baz bam"))]) == Ok("test bar baz bam")
  {
    var data: Dict<Value> := [("foo", Str("bar baz bam"))];
    TestTemplates();
    TestPath(["foo"]);
    assert Templates.Lookup(data, ["foo"]) == Ok(Str("bar baz bam"));
    Templates.FormatOneField(Env(), "test ", ["foo"], data);
    assert Templates.Format(Env(), "test " + ("{" + "foo" + "}"), data) == Ok("test " + "bar baz bam");
  }

  lemma FormatNested()
    ensures Templates.Format(Env(), "test {foo.bar}", [("foo", Obj([("bar", Str("bar baz bam"))]))])
         == Ok("test bar baz bam")
  {
    var data: Dict<Value> := [("foo", Obj([("bar", Str("bar baz bam"))]))];
    TestTemplates();
    TestPath(["foo", "bar"]);
    NestedLookup(data, "bar");
    Templates.FormatOneField(Env(), "test ", ["foo", "bar"], data);
  }

  lemma FormatMissingAttribute()
    ensures Templates.Format(Env(), "test {foo.baa}", [("foo", Obj([("bar", Str("bar baz bam"))]))])
         == Err(MissingTemplateField("baa"))
  {
    var data: Dict<Value> := [("foo", Obj([("bar", Str("bar baz bam"))]))];
    TestTemplates();
    TestPath(["foo", "baa"]);
    NestedLookup(data, "baa");
    Templates.FormatOneField(Env(), "test ", ["foo", "baa"], data);
  }

  /** The literal texts the template scenarios put together. */
  lemma TestTemplates()
    ensures Templates.NoBraces("test ")
    ensures "test " + ("{" + "foo" + "}") == "test {foo}"
    ensures "test " + ("{" + ("foo" + "." + "bar") + "}") == "test {foo.bar}"
    ensures "test " + ("{" + ("foo" + "." + "baa") + "}") == "test {foo.baa}"
    ensures "test " + "bar baz bam" == "test bar baz bam"
  {
  }

  /** A placeholder path of one or two lower-case names. */
  lemma TestPath(path: seq<string>)
    requires path == ["foo"] || path == ["foo", "bar"] || path == ["foo", "baa"]
    ensures Templates.WellFormedPath(path)
    ensures Templates.Join(path) == if |path| == 1 then path[0] else path[0] + "." + path[1]
  {
    forall i | 0 <= i < |path|
      ensures path[i] != "" && Templates.NameText(path[i]) && !Templates.Positional(path[i])
    {
      LowerName(path[i]);
    }
    if |path| == 2 {
      assert path[1..] == [path[1]];
    }
  }

  lemma LowerName(n: string)
    requires n == "foo" || n == "bar" || n == "baa"
    ensures n != "" && Templates.NameText(n) && !Templates.Positional(n)
  {
    assert 'a' <= n[0] <= 'z';
    forall k | 0 <= k < |n|
      ensures n[k] !in "{}.:!["
    {
      assert 'a' <= n[k] <= 'z';
    }
  }

  lemma NestedLookup(data: Dict<Value>, attr: string)
    requires data == [("foo", Obj([("bar", Str("bar baz bam"))]))]
    requires attr == "bar" || attr == "baa"
    ensures Templates.Lookup(data, ["foo", attr]) ==
      if attr == "bar" then Ok(Str("bar baz bam")) else Err(MissingTemplateField("baa"))
  {
    var foo := Obj([("bar", Str("bar baz bam"))]);
    LowerName(attr);
    assert ["foo", attr][1..] == [attr];
    assert Get(data, "foo") == Some(foo);
    assert !Templates.Positional("foo") by {
      assert "foo"[0] == 'f';
    }
    assert Templates.Lookup(data, ["foo", attr]) == Templates.Walk(foo, [attr]);
    if attr == "bar" {
      assert Values.Member(foo, "bar") == Some(Str("bar baz bam"));
      assert ["bar"][1..] == [];
      assert Templates.Walk(foo, ["bar"]) == Templates.Walk(Str("bar baz bam"), []);
    } else {
      assert "baa" != "bar" by {
        assert "baa"[2] != "bar"[2];
      }
      assert Values.Member(foo, "baa") == None;
      assert Templates.Walk(foo, ["baa"]) == Err(MissingTemplateField("baa"));
    }
  }

  // ---------------------------------------------------------------------------
  // Problem details

  function FooBazData(): Dict<Value> {
    [("foo", Str("bar")), ("baz", Int(123))]
  }

  /** `ProblemDetails(problem_type=ProblemType(extension=FooBaz()), foo="bar", baz=123)` */
  lemma DetailsWithData()
    ensures Details.Construct(Env(), Some(Types.ProblemType(BlankIdentifier, "", "", FooBaz())), None, None, None,
                              FooBazData())
         == Ok(Details.ProblemDetails(Types.ProblemType(BlankIdentifier, "", "", FooBaz()), FooBazData(), "", "", None))
  {
  }

  /** Supplied members are attributes; a declared but absent one is not. */
  lemma DetailsAttributes()
    ensures var d := Details.ProblemDetails(Types.ProblemType(BlankIdentifier, "", "", FooBaz()), FooBazData(), "", "", None);
      && Details.GetAttr(d, "foo") == Ok(Details.MemberAttr(Str("bar")))
      && Details.GetAttr(d, "baz") == Ok(Details.MemberAttr(Int(123)))
      && Details.GetAttr(d, "bar") == Err(AttributeNotFound("bar", "ProblemDetails"))
  {
  }

  /** The export lists the structural keys, then the members. */
  lemma DetailsExport()
    ensures Details.Export(Details.ProblemDetails(Types.ProblemType(BlankIdentifier, "", "", FooBaz()), FooBazData(), "", "", None))
         == [("type", Str("about:blank")), ("title", Str("")), ("detail", Str("")), ("status", Null),
             ("foo", Str("bar")), ("baz", Int(123))]
  {
  }

  lemma DetailsUnknownMember()
    ensures Details.Construct(Env(), Some(Types.ProblemType(BlankIdentifier, "", "", FooBaz())), None, None, None,
                              [("foo", Str("bar")), ("baa", Int(123))])
         == Err(UnknownExtensionField("baa", "ProblemType"))
  {
  }

  lemma DetailsWrongValue()
    ensures Details.Construct(Env(), Some(Types.ProblemType(BlankIdentifier, "", "", FooBaz())), None, None, None,
                              [("foo", Str("bar")), ("baz", Str("123"))])
         == Err(SchemaViolation(Str("123"), IntegerSchema()))
  {
  }

  /** `{"foo": {"type": "string"}, "bar": {"type": "integer"}}` */
  function FooBar(): Types.Extension {
    [("foo", StringSchema()), ("bar", IntegerSchema())]
  }

  const BaseTitle: string := "Base example type"
  const BaseDetail: string := "This is a base example type, imagine that!"

  /** `//example.com/base`, already split into its components. */
  function BaseUri(): Uri {
    Uri(None, Some("example.com"), Some("/base"))
  }

  /** `foo="bla bla", bar=123` */
  function BaseData(): Dict<Value> {
    [("foo", Str("bla bla")), ("bar", Int(123))]
  }

  /** The `base_type` fixture as the constructor builds it. */
  function BaseRecord(): Types.ProblemType {
    Types.ProblemType("https://example.com/base", BaseTitle, BaseDetail, FooBar())
  }

  /** `ProblemType(identifier="//example.com/base", title=..., detail=..., extension=FooBar())`
      gains the default scheme and keeps the texts and the extension. */
  lemma BaseType()
    ensures Types.Construct(Env(), Some(BaseUri()), BaseTitle, BaseDetail, Some(FooBar())) == Ok(BaseRecord())
  {
    BaseIdentifier();
    BaseExtension();
  }

  lemma BaseIdentifier()
    ensures ValidateIdentifier(BaseUri()) == Ok("https://example.com/base")
  {
    FillsSchemeOnly("example.com", Some("/base"));
    BaseText();
  }

  lemma BaseText()
    ensures "https://" + "example.com" + "/base" == "https://example.com/base"
  {
  }

  lemma BaseExtension()
    ensures Types.ValidateExtension(Env(), FooBar()) == Ok(FooBar())
  {
  }

  /** An instance of the constructed base type without explicit texts takes the type's
      title and detail, and keeps its data. */
  lemma DetailsFromType()
    ensures Types.Construct(Env(), Some(BaseUri()), BaseTitle, BaseDetail, Some(FooBar())) == Ok(BaseRecord())
    ensures BaseRecord().identifier == "https://example.com/base"
    ensures Details.Construct(Env(), Some(BaseRecord()), None, None, None, BaseData())
         == Ok(Details.ProblemDetails(BaseRecord(), BaseData(), BaseTitle, BaseDetail, None))
  {
    BaseType();
    BaseDetails();
  }

  lemma BaseDetails()
    ensures Details.Construct(Env(), Some(BaseRecord()), None, None, None, BaseData())
         == Ok(Details.ProblemDetails(BaseRecord(), BaseData(), BaseTitle, BaseDetail, None))
  {
    var t := BaseRecord();
    var values := BaseData();
    assert Details.ValidateData(Env(), t, values) == Ok(values);
    BaseTexts();
    assert Templates.Format(Env(), t.title, values) == Ok(t.title);
    assert Templates.Format(Env(), t.detail, values) == Ok(t.detail);
  }

  lemma BaseTexts()
    ensures Templates.NoBraces(BaseTitle) && Templates.NoBraces(BaseDetail)
  {
    var title, detail := BaseTitle, BaseDetail;
    forall i | 0 <= i < |title| ensures title[i] != '{' && title[i] != '}' { }
    forall i | 0 <= i < |detail| ensures detail[i] != '{' && detail[i] != '}' { }
  }

  lemma TypelessDetails()
    ensures Details.Construct(Env(), None, Some("Foo"), Some("Bar"), None, []).value.title == "Foo"
    ensures Details.Construct(Env(), None, Some("Foo"), Some("Bar"), None, []).value.detail == "Bar"
    ensures Details.Construct(Env(), None, None, None, Some(Code(200)), []).value.status == Some(200)
    ensures Details.Construct(Env(), None, None, None, Some(Known(200)), []).value.status == Some(200)
    ensures Details.Construct(Env(), None, None, None, Some(Code(299)), []) == Err(InvalidStatus(299))
  {
    assert Templates.NoBraces("Foo") && Templates.NoBraces("Bar");
  }
}

=== FILE: statuses.dfy ===
/** HTTP status coercion (`HTTPStatus(status)`): an integer becomes the status with that
    code if the enumeration has one; a status passes through. */
module Statuses {
  import opened Wrappers
  import opened Errors

  /** The codes of Python's `http.HTTPStatus` enumeration (Python 3.11), written as
      ranges: 100-103, 200-208, 226, 300-305, 307-308, 400-418, 421-426, 428, 429, 431,
      451, 500-508, 510 and 511. */
  predicate IsCode(n: int) {
    || 100 <= n <= 103
    || 200 <= n <= 208 || n == 226
    || 300 <= n <= 305 || 307 <= n <= 308
    || 400 <= n <= 418 || 421 <= n <= 426 || n == 428 || n == 429 || n == 431 || n == 451
    || 500 <= n <= 508 || n == 510 || n == 511
  }

  /** A member of the enumeration, identified by its code. */
  type HttpStatus = n: int | IsCode(n) witness 200

  /** What a caller may pass as `status`: a plain integer or an enumeration member. */
  datatype StatusArg = Code(n: int) | Known(status: HttpStatus)

  /** `None if status is None else HTTPStatus(status)`. */
  function Coerce(arg: Option<StatusArg>): (r: Result<Option<HttpStatus>, Error>)
    ensures arg.None? ==> r == Ok(None)
    ensures arg.Some? && arg.value.Known? ==> r == Ok(Some(arg.value.status))
    ensures arg.Some? && arg.value.Code? ==>
      if IsCode(arg.value.n) then r == Ok(Some(arg.value.n)) else r == Err(InvalidStatus(arg.value.n))
  {
    match arg
    case None => Ok(None)
    case Some(Known(s)) => Ok(Some(s))
    case Some(Code(n)) => if IsCode(n) then Ok(Some(n)) else Err(InvalidStatus(n))
  }

  /** An integer code and the member with that code give the same status. */
  lemma CodeMatchesMember(s: HttpStatus)
    ensures Coerce(Some(Code(s))) == Coerce(Some(Known(s))) == Ok(Some(s))
  {
  }
}

=== FILE: templates.dfy ===
/** Title and detail templates (`ProblemType.format`): Python's `str.format` restricted
    to literal text, the `{{` and `}}` escapes and `{name}` / `{name.sub.sub}`
    placeholders resolved against nested data, one dotted segment at a time.

    `Format` works on the template string the way Python's formatter does, looking each
    placeholder up as soon as it is read, so errors surface in textual order.
    `Parse`, `Unparse` and `Render` are an independent reference reading of the same
    syntax: a template is a sequence of pieces, and formatting is rendering the parsed
    pieces. */
module Templates {
  import opened Wrappers
  import opened Dicts
  import opened Values
  import opened Errors

  // ---------------------------------------------------------------------------
  // Dotted names

  /** `s` split at every '.'; always at least one (possibly empty) segment. */
  function Split(s: string): (r: seq<string>)
    ensures |r| >= 1
    decreases |s|
  {
    if s == [] then [""]
    else
      var rest := Split(s[1..]);
      if s[0] == '.' then [""] + rest else [[s[0]] + rest[0]] + rest[1..]
  }

  /** Every character of a segment comes from the split text and is not a dot. */
  lemma {:induction false} SplitChars(s: string, i: nat, c: char)
    requires i < |Split(s)| && c in Split(s)[i]
    ensures c in s && c != '.'
    decreases |s|
  {
    if s != [] {
      var rest := Split(s[1..]);
      if s[0] == '.' {
        assert Split(s)[i] == rest[i - 1];
        SplitChars(s[1..], i - 1, c);
      } else if i == 0 && c != s[0] {
        assert c in rest[0];
        SplitChars(s[1..], 0, c);
      } else if i > 0 {
        assert Split(s)[i] == rest[i];
        SplitChars(s[1..], i, c);
      }
    }
  }

  /** The segments glued back together with '.'. */
  function Join(p: seq<string>): string
    requires |p| >= 1
  {
    if |p| == 1 then p[0] else p[0] + "." + Join(p[1..])
  }

  lemma {:induction false} JoinCons(c: char, p: seq<string>)
    requires |p| >= 1
    ensures Join([[c] + p[0]] + p[1..]) == [c] + Join(p)
  {
    var q := [[c] + p[0]] + p[1..];
    if |p| > 1 {
      assert q[1..] == p[1..];
    }
  }

  /** Joining the segments of a split gives back the original text. */
  lemma {:induction false} JoinSplit(s: string)
    ensures Join(Split(s)) == s
  {
    if s != [] {
      var rest := Split(s[1..]);
      JoinSplit(s[1..]);
      if s[0] == '.' {
        assert ([""] + rest)[1..] == rest;
      } else {
        JoinCons(s[0], rest);
      }
    }
  }

  lemma {:induction false} SplitPlain(a: string)
    requires '.' !in a
    ensures Split(a) == [a]
  {
    if a != [] {
      assert '.' !in a[1..];
      SplitPlain(a[1..]);
      assert [a[0]] + a[1..] == a;
    }
  }

  lemma {:induction false} SplitDot(a: string, b: string)
    requires '.' !in a
    ensures Split(a + "." + b) == [a] + Split(b)
  {
    if a == [] {
      assert (a + "." + b)[1..] == b;
    } else {
      assert (a + "." + b)[1..] == a[1..] + "." + b;
      assert '.' !in a[1..];
      SplitDot(a[1..], b);
      assert [a[0]] + a[1..] == a;
    }
  }

  /** Splitting joined dot-free segments gives back the segments. */
  lemma {:induction false} SplitJoin(p: seq<string>)
    requires |p| >= 1
    requires forall i | 0 <= i < |p| :: '.' !in p[i]
    ensures Split(Join(p)) == p
  {
    if |p| == 1 {
      SplitPlain(p[0]);
    } else {
      SplitDot(p[0], Join(p[1..]));
      SplitJoin(p[1..]);
    }
  }

  // ---------------------------------------------------------------------------
  // Looking a placeholder up

  /** A first segment made of digits only (or empty) names a positional argument, of
      which `format` passes none. */
  predicate Positional(name: string) {
    forall i | 0 <= i < |name| :: '0' <= name[i] <= '9'
  }

  /** Characters that start a conversion (`!`), a format spec (`:`) or an index (`[`). */
  predicate Unsupported(text: string) {
    ':' in text || '!' in text || '[' in text
  }

  /** Attribute-style descent through nested values, one segment at a time. */
  function Walk(v: Value, names: seq<string>): (r: Result<Value, Error>)
    ensures r.Ok? ==> forall i | 0 <= i < |names| :: names[i] != ""
    ensures r.Err? && r.error.MissingTemplateField? ==> r.error.segment in names && r.error.segment != ""
    ensures r.Err? ==> r.error == MalformedTemplate || r.error.MissingTemplateField?
    decreases |names|
  {
    if names == [] then Ok(v)
    else if names[0] == "" then Err(MalformedTemplate)
    else
      match Member(v, names[0])
      case None => Err(MissingTemplateField(names[0]))
      case Some(child) => Walk(child, names[1..])
  }

  /** A dotted path looked up in the data: the first segment is a key of `data`, the
      rest are attributes of what it holds. A missing segment is reported by name. */
  function Lookup(data: Dict<Value>, path: seq<string>): (r: Result<Value, Error>)
    ensures r.Ok? ==> |path| >= 1 && !Positional(path[0])
    ensures r.Ok? ==> forall i | 0 <= i < |path| :: path[i] != ""
    ensures r.Err? && r.error.MissingTemplateField? ==> r.error.segment in path && r.error.segment != ""
    ensures path == [] || Positional(path[0]) ==> r == Err(MalformedTemplate)
    ensures r.Err? ==> r.error == MalformedTemplate || r.error.MissingTemplateField?
  {
    if path == [] || Positional(path[0]) then Err(MalformedTemplate)
    else
      match Get(data, path[0])
      case None => Err(MissingTemplateField(path[0]))
      case Some(v) => Walk(v, path[1..])
  }

  /** Descending along `p + q` is descending along `p`, then along `q`. */
  lemma {:induction false} WalkAppend(v: Value, p: seq<string>, q: seq<string>)
    ensures Walk(v, p + q) ==
      match Walk(v, p)
      case Err(e) => Err(e)
      case Ok(w) => Walk(w, q)
    decreases |p|
  {
    if p != [] {
      assert (p + q)[0] == p[0];
      assert (p + q)[1..] == p[1..] + q;
      if p[0] != "" {
        match Member(v, p[0])
        case None =>
        case Some(child) =>
          assert Walk(v, p) == Walk(child, p[1..]);
          assert Walk(v, p + q) == Walk(child, p[1..] + q);
          WalkAppend(child, p[1..], q);
      }
    } else {
      assert p + q == q;
    }
  }

  /** One step of a descent: `{a.n}` finds exactly member `n` of what `a` holds. With
      `WalkAppend` this fixes the value a path resolves to at every depth. */
  lemma WalkStep(v: Value, n: string, w: Value)
    ensures Walk(v, [n]) == Ok(w) <==> n != "" && Member(v, n) == Some(w)
  {
    assert [n][1..] == [];
  }

  /** The first segment of a placeholder is a key of the data, and the rest of the path
      descends from the value stored under it. */
  lemma LookupFirst(data: Dict<Value>, n: string, q: seq<string>, v: Value)
    requires !Positional(n) && Get(data, n) == Some(v)
    ensures Lookup(data, [n] + q) == Walk(v, q)
  {
    assert ([n] + q)[0] == n && ([n] + q)[1..] == q;
  }

  /** A descent blames the first segment that is missing: once `p` leads to `w` and `w`
      has no member `n`, the descent along `p + [n] + q` fails naming `n`, whatever `q`. */
  lemma MissingSegment(v: Value, p: seq<string>, n: string, q: seq<string>, w: Value)
    requires Walk(v, p) == Ok(w) && n != "" && Member(w, n).None?
    ensures Walk(v, p + [n] + q) == Err(MissingTemplateField(n))
  {
    assert p + [n] + q == p + ([n] + q);
    WalkAppend(v, p, [n] + q);
    assert ([n] + q)[0] == n;
  }

  /** A placeholder whose first segment is not a key of the data fails naming that
      segment, whatever follows it. */
  lemma LookupMissing(data: Dict<Value>, n: string, q: seq<string>)
    requires !Positional(n) && n !in Keys(data)
    ensures Lookup(data, [n] + q) == Err(MissingTemplateField(n))
  {
    assert ([n] + q)[0] == n;
  }

  /** A placeholder whose prefix resolves but whose next segment is missing fails naming
      that segment, whatever follows it. */
  lemma LookupMissingSegment(data: Dict<Value>, p: seq<string>, n: string, q: seq<string>, w: Value)
    requires Lookup(data, p) == Ok(w) && n != "" && Member(w, n).None?
    ensures Lookup(data, p + [n] + q) == Err(MissingTemplateField(n))
  {
    var path := p + [n] + q;
    assert path[0] == p[0] && path[1..] == p[1..] + [n] + q;
    MissingSegment(Get(data, p[0]).value, p[1..], n, q, w);
  }

  /** A single-segment placeholder finds exactly the pairs of the data. */
  lemma LookupKey(data: Dict<Value>, name: string, v: Value)
    requires !Positional(name)
    ensures Lookup(data, [name]) == Ok(v) <==> (name, v) in data
  {
    GetExactly(data, name, v);
  }

  /** The text between a pair of braces, checked and looked up. */
  function ResolveField(data: Dict<Value>, text: string): (r: Result<Value, Error>)
    ensures r.Ok? ==> '{' !in text && !Unsupported(text)
  {
    if '{' in text then Err(MalformedTemplate)
    else if Unsupported(text) then Err(UnsupportedPlaceholder)
    else Lookup(data, Split(text))
  }

  /** Index of the first `c` in `s` at or after `from`, or `|s|`. */
  function Find(s: string, c: char, from: nat): (j: nat)
    requires from <= |s|
    ensures from <= j <= |s|
    ensures j < |s| ==> s[j] == c
    ensures forall k | from <= k < j :: s[k] != c
    decreases |s| - from
  {
    if from == |s| || s[from] == c then from else Find(s, c, from + 1)
  }

  // ---------------------------------------------------------------------------
  // Reading a template

  datatype Piece = Char(c: char) | Field(path: seq<string>)

  type Template = seq<Piece>

  function UnparsePiece(p: Piece): string {
    match p
    case Char(c) => if c == '{' || c == '}' then [c, c] else [c]
    case Field(path) => if |path| >= 1 then "{" + Join(path) + "}" else "{}"
  }

  /** The template text of a sequence of pieces, braces escaped by doubling. */
  function Unparse(t: Template): string {
    if t == [] then [] else UnparsePiece(t[0]) + Unparse(t[1..])
  }

  /** What the formatter reads at the front of a non-empty template: one literal
      character (an escaped brace takes two), a placeholder's inner text up to the
      first closing brace, or a brace that is neither (a stray '}' or a '{' that is
      never closed). */
  datatype Token = Literal(c: char, width: nat) | Placeholder(text: string, width: nat) | Stray

  function Next(s: string): (t: Token)
    requires s != []
    ensures !t.Stray? ==> 1 <= t.width <= |s|
    ensures t.Literal? ==> s[..t.width] == UnparsePiece(Char(t.c))
    ensures t.Placeholder? ==> t.width == |t.text| + 2 && s[..t.width] == "{" + t.text + "}"
    ensures t.Placeholder? ==> '}' !in t.text
    ensures t.Stray? ==> s[0] == '}' || (s[0] == '{' && '}' !in s[1..])
  {
    if |s| > 1 && s[0] == '{' && s[1] == '{' then Literal('{', 2)
    else if |s| > 1 && s[0] == '}' && s[1] == '}' then Literal('}', 2)
    else if s[0] == '}' then Stray
    else if s[0] == '{' then
      var close := Find(s, '}', 1);
      if close == |s| then Stray
      else
        assert s[..close + 1] == "{" + s[1..close] + "}";
        Placeholder(s[1..close], close + 1)
    else Literal(s[0], 1)
  }

  predicate NoBraces(s: string) {
    '{' !in s && '}' !in s
  }

  /** `template.format(**data)`, restricted as described above. */
  function Format(env: Collaborators, template: string, data: Dict<Value>): (r: Result<string, Error>)
    ensures NoBraces(template) ==> r == Ok(template)
    decreases |template|
  {
    if template == [] then Ok([])
    else
      assert NoBraces(template) ==>
        Next(template) == Literal(template[0], 1) && NoBraces(template[1..])
        && template == [template[0]] + template[1..];
      match Next(template)
      case Stray => Err(MalformedTemplate)
      case Literal(c, width) =>
        var rest :- Format(env, template[width..], data);
        Ok([c] + rest)
      case Placeholder(text, width) =>
        var v :- ResolveField(data, text);
        var rest :- Format(env, template[width..], data);
        Ok(Display(env, v) + rest)
  }

  // ---------------------------------------------------------------------------
  // Reference reading: templates as pieces

  /** No brace, no dot and none of the characters of the left-out syntax. */
  predicate NameText(s: string) {
    forall i | 0 <= i < |s| :: s[i] !in "{}.:!["
  }

  /** A placeholder path that `Parse` produces and `Unparse` can write back. */
  predicate WellFormedPath(p: seq<string>) {
    && |p| >= 1
    && !Positional(p[0])
    && forall i | 0 <= i < |p| :: p[i] != "" && NameText(p[i])
  }

  predicate WellFormed(t: Template) {
    forall i | 0 <= i < |t| :: t[i].Field? ==> WellFormedPath(t[i].path)
  }

  function ParseField(text: string): (r: Result<seq<string>, Error>)
    ensures r.Ok? ==> WellFormedPath(r.value) && Join(r.value) == text
  {
    if '{' in text then Err(MalformedTemplate)
    else if Unsupported(text) then Err(UnsupportedPlaceholder)
    else
      var p := Split(text);
      JoinSplit(text);
      if WellFormedPath(p) then Ok(p) else Err(MalformedTemplate)
  }

  /** The pieces of a template string. */
  function Parse(s: string): (r: Result<Template, Error>)
    ensures r.Ok? ==> WellFormed(r.value)
    decreases |s|
  {
    if s == [] then Ok([])
    else
      match Next(s)
      case Stray => Err(MalformedTemplate)
      case Literal(c, width) =>
        var rest :- Parse(s[width..]);
        Ok([Char(c)] + rest)
      case Placeholder(text, width) =>
        var path :- ParseField(text);
        var rest :- Parse(s[width..]);
        Ok([Field(path)] + rest)
  }

  /** The pieces rendered against the data, failing at the first unresolvable placeholder. */
  function Render(env: Collaborators, t: Template, data: Dict<Value>): (r: Result<string, Error>)
    ensures r.Ok? <==> forall i | 0 <= i < |t| && t[i].Field? :: Lookup(data, t[i].path).Ok?
    decreases |t|
  {
    if t == [] then Ok([])
    else
      match t[0]
      case Char(c) =>
        var rest :- Render(env, t[1..], data);
        Ok([c] + rest)
      case Field(path) =>
        var v :- Lookup(data, path);
        var rest :- Render(env, t[1..], data);
        Ok(Display(env, v) + rest)
  }

  lemma UnparseCons(p: Piece, t: Template)
    ensures Unparse([p] + t) == UnparsePiece(p) + Unparse(t)
  {
    assert ([p] + t)[1..] == t;
  }

  /** Reading a template and writing its pieces out again gives back the same text. */
  lemma {:induction false} UnparseParse(s: string)
    requires Parse(s).Ok?
    ensures Unparse(Parse(s).value) == s
    decreases |s|
  {
    if s != [] {
      var p, w := ParseStep(s);
      UnparseParse(s[w..]);
      UnparseCons(p, Parse(s[w..]).value);
      assert s == s[..w] + s[w..];
    }
  }

  /** The first piece of a template that parses, and the text it was read from. */
  lemma ParseStep(s: string) returns (p: Piece, w: nat)
    requires s != [] && Parse(s).Ok?
    ensures 1 <= w <= |s|
    ensures Parse(s[w..]).Ok? && Parse(s).value == [p] + Parse(s[w..]).value
    ensures UnparsePiece(p) == s[..w]
  {
    var tok := Next(s);
    w := tok.width;
    p := if tok.Literal? then Char(tok.c) else Field(ParseField(tok.text).value);
  }

  lemma {:induction false} JoinNameText(p: seq<string>)
    requires |p| >= 1
    requires forall i | 0 <= i < |p| :: NameText(p[i])
    ensures forall i | 0 <= i < |Join(p)| :: Join(p)[i] !in "{}:!["
  {
    if |p| > 1 {
      JoinNameText(p[1..]);
      var j := Join(p);
      assert j == p[0] + "." + Join(p[1..]);
      forall i | 0 <= i < |j|
        ensures j[i] !in "{}:!["
      {
        if i < |p[0]| {
          assert j[i] == p[0][i];
        } else if i > |p[0]| {
          assert j[i] == Join(p[1..])[i - |p[0]| - 1];
        }
      }
    }
  }

  /** A well-formed path is read back from its dotted text. */
  lemma ParseFieldJoin(path: seq<string>)
    requires WellFormedPath(path)
    ensures ParseField(Join(path)) == Ok(path)
  {
    var name := Join(path);
    JoinNameText(path);
    assert forall i | 0 <= i < |path| :: '.' !in path[i] by {
      forall i, k | 0 <= i < |path| && 0 <= k < |path[i]|
        ensures path[i][k] != '.'
      {
        assert NameText(path[i]);
      }
    }
    SplitJoin(path);
    assert '{' !in name && !Unsupported(name) by {
      forall k | 0 <= k < |name|
        ensures name[k] != '{' && name[k] != ':' && name[k] != '!' && name[k] != '['
      {
        assert name[k] !in "{}:![";
      }
    }
  }

  /** What the formatter reads at the front of a written-out piece. */
  lemma NextOfPiece(p: Piece, rest: string)
    requires p.Field? ==> WellFormedPath(p.path)
    ensures Next(UnparsePiece(p) + rest) ==
      match p
      case Char(c) => Literal(c, |UnparsePiece(p)|)
      case Field(path) => Placeholder(Join(path), |Join(path)| + 2)
  {
    var s := UnparsePiece(p) + rest;
    match p
    case Char(c) =>
      assert s[0] == UnparsePiece(p)[0];
      assert |UnparsePiece(p)| == 2 ==> s[1] == UnparsePiece(p)[1];
    case Field(path) =>
      var name := Join(path);
      JoinNameText(path);
      assert s == "{" + name + "}" + rest;
      assert |name| >= 1 by {
        if |path| > 1 {
        } else {
          assert name == path[0];
        }
      }
      assert s[1] == name[0];
      var close := Find(s, '}', 1);
      assert close == |name| + 1 by {
        assert s[|name| + 1] == '}';
        forall k | 1 <= k < |name| + 1
          ensures s[k] != '}'
        {
          assert s[k] == name[k - 1];
        }
      }
      assert s[1..close] == name;
      assert Next(s) == Placeholder(name, |name| + 2);
  }

  /** Writing well-formed pieces out and reading them back gives the same pieces. */
  lemma {:induction false} ParseUnparse(t: Template)
    requires WellFormed(t)
    ensures Parse(Unparse(t)) == Ok(t)
    decreases |t|
  {
    if t != [] {
      var rest := Unparse(t[1..]);
      assert WellFormed(t[1..]) by {
        forall i | 0 <= i < |t[1..]| && t[1..][i].Field?
          ensures WellFormedPath(t[1..][i].path)
        {
          assert t[1..][i] == t[i + 1];
        }
      }
      ParseUnparse(t[1..]);
      var s := Unparse(t);
      var w := |UnparsePiece(t[0])|;
      assert s == UnparsePiece(t[0]) + rest;
      assert s[w..] == rest;
      assert t == [t[0]] + t[1..];
      NextOfPiece(t[0], rest);
      if t[0].Field? {
        ParseFieldJoin(t[0].path);
      }
    }
  }

  /** On a template that parses, formatting is rendering its pieces. */
  lemma {:induction false} FormatIsRender(env: Collaborators, s: string, data: Dict<Value>)
    requires Parse(s).Ok?
    ensures Format(env, s, data) == Render(env, Parse(s).value, data)
    decreases |s|
  {
    if s != [] {
      var t := Parse(s).value;
      assert t == [t[0]] + t[1..];
      match Next(s)
      case Literal(c, width) =>
        assert t[1..] == Parse(s[width..]).value;
        FormatIsRender(env, s[width..], data);
      case Placeholder(text, width) =>
        assert t[1..] == Parse(s[width..]).value;
        FormatIsRender(env, s[width..], data);
    }
  }

  /** A template that formats successfully is a well-formed one. */
  lemma {:induction false} FormatNeedsParse(env: Collaborators, s: string, data: Dict<Value>)
    requires Format(env, s, data).Ok?
    ensures Parse(s).Ok?
    decreases |s|
  {
    if s != [] {
      match Next(s)
      case Literal(c, width) =>
        FormatNeedsParse(env, s[width..], data);
      case Placeholder(text, width) =>
        var p := Split(text);
        assert Lookup(data, p).Ok?;
        assert WellFormedPath(p) by {
          forall i | 0 <= i < |p|
            ensures NameText(p[i])
          {
            forall k | 0 <= k < |p[i]|
              ensures p[i][k] !in "{}.:!["
            {
              assert p[i][k] in p[i];
              SplitChars(text, i, p[i][k]);
            }
          }
        }
        FormatNeedsParse(env, s[width..], data);
    }
  }
  /** Text without braces in front of a template is copied through unchanged. */
  lemma {:induction false} FormatLiteralPrefix(env: Collaborators, p: string, s: string, data: Dict<Value>)
    requires NoBraces(p)
    ensures Format(env, p + s, data) ==
      match Format(env, s, data)
      case Err(e) => Err(e)
      case Ok(x) => Ok(p + x)
    decreases |p|
  {
    if p == [] {
      assert p + s == s;
      if Format(env, s, data).Ok? {
        assert p + Format(env, s, data).value == Format(env, s, data).value;
      }
    } else {
      var w := p + s;
      assert w[0] == p[0] && p[0] != '{' && p[0] != '}';
      assert Next(w) == Literal(p[0], 1);
      assert w[1..] == p[1..] + s;
      assert NoBraces(p[1..]) by {
        assert forall c | c in p[1..] :: c in p;
      }
      FormatLiteralPrefix(env, p[1..], s, data);
      assert Format(env, w, data) ==
        match Format(env, w[1..], data)
        case Err(e) => Err(e)
        case Ok(x) => Ok([p[0]] + x);
      if Format(env, s, data).Ok? {
        ConsTail(p, Format(env, s, data).value);
      }
    }
  }

  lemma ConsTail(p: string, x: string)
    requires p != []
    ensures [p[0]] + (p[1..] + x) == p + x
  {
    assert p == [p[0]] + p[1..];
  }

  /** A placeholder in front of a template is replaced by the value its path resolves
      to; an unresolvable path is the error. */
  lemma FormatPlaceholder(env: Collaborators, path: seq<string>, s: string, data: Dict<Value>)
    requires WellFormedPath(path)
    ensures Format(env, "{" + Join(path) + "}" + s, data) ==
      match Lookup(data, path)
      case Err(e) => Err(e)
      case Ok(v) =>
        match Format(env, s, data)
        case Err(e) => Err(e)
        case Ok(x) => Ok(Display(env, v) + x)
  {
    var name := Join(path);
    var w := "{" + name + "}" + s;
    NextOfPiece(Field(path), s);
    ParseFieldJoin(path);
    assert w[|name| + 2..] == s;
  }
  /** Literal text followed by one placeholder: the text, then the value the path
      resolves to, or the lookup's error. */
  lemma FormatOneField(env: Collaborators, prefix: string, path: seq<string>, data: Dict<Value>)
    requires NoBraces(prefix) && WellFormedPath(path)
    ensures Lookup(data, path).Err? ==>
      Format(env, prefix + ("{" + Join(path) + "}"), data) == Err(Lookup(data, path).error)
    ensures Lookup(data, path).Ok? ==>
      Format(env, prefix + ("{" + Join(path) + "}"), data) == Ok(prefix + Display(env, Lookup(data, path).value))
  {
    var field := "{" + Join(path) + "}";
    assert field + [] == field;
    FormatPlaceholder(env, path, [], data);
    FormatLiteralPrefix(env, prefix, field, data);
    if Lookup(data, path).Ok? {
      assert Display(env, Lookup(data, path).value) + [] == Display(env, Lookup(data, path).value);
    }
  }
}

=== FILE: values.dfy ===
/** The data a problem carries: JSON-like values, schema documents (which are values
    themselves) and the foreign code the core delegates to. */
module Values {
  import opened Wrappers
  import opened Dicts

  /** A Python value as it reaches the core: nested dicts become `Obj`, in insertion order.
      Floating-point numbers are not part of the model. */
  datatype Value =
    | Null
    | Bool(b: bool)
    | Int(i: int)
    | Str(s: string)
    | Arr(items: seq<Value>)
    | Obj(members: Dict<Value>)

  /** A JSON-Schema document is itself a JSON value (`{"type": "string"}`, `[]`, ...). */
  type Schema = Value

  /** What the core calls but does not implement, as total functions:
      - `wellFormed(s)`: the JSON-Schema meta-validation (`check_schema`) accepts `s`;
      - `satisfies(v, s)`: JSON-Schema validation of instance `v` against `s` passes;
      - `show(v)`: Python's `format(v, "")` for a value that is not a string. */
  datatype Collaborators = Collaborators(
    wellFormed: Schema -> bool,
    satisfies: (Value, Schema) -> bool,
    show: Value -> string)

  /** Attribute access on a value wrapped by the `Box` library: a mapping exposes its
      keys as attributes; any other value has none of the names a template can use. */
  function Member(v: Value, name: string): (r: Option<Value>)
    ensures r.Some? <==> v.Obj? && name in Keys(v.members)
    ensures r.Some? ==> (name, r.value) in v.members
  {
    if v.Obj? then Get(v.members, name) else None
  }

  /** The text a replacement field turns into: a string is inserted as is, anything
      else as the foreign `show` renders it. */
  function Display(env: Collaborators, v: Value): (r: string)
    ensures v.Str? ==> r == v.s
  {
    match v
    case Str(s) => s
    case _ => env.show(v)
  }
}

=== FILE: wrappers.dfy ===
/** Failure-compatible wrappers used throughout the model: an optional value and a
    result that is either a success value or an error. Both work with `:-`. */
module Wrappers {

  datatype Option<+T> = None | Some(value: T) {
    predicate IsFailure() {
      None?
    }

    function PropagateFailure<U>(): Option<U>
      requires None?
    {
      None
    }

    function Extract(): T
      requires Some?
    {
      value
    }
  }

  /** Python's "raise" becomes `Err`; every operation of the model returns one of these
      instead of throwing. */
  datatype Result<+T, +E> = Ok(value: T) | Err(error: E) {
    predicate IsFailure() {
      Err?
    }

    function PropagateFailure<U>(): Result<U, E>
      requires Err?
    {
      Err(error)
    }

    function Extract(): T
      requires Ok?
    {
      value
    }
  }
}
